=== FILE: README.md ===
# In-flight rate-limit filter: a Dafny model of its decision logic

This project models the sequential decision logic of an in-process admission
filter that sits in front of an HTTP handler. The filter classifies each
request into a quota bucket and then does one of three things. It serves the
request at once on the bucket's reserved quota. Or it queues the request until
a unit of shared quota arrives for the request's priority band. Or it rejects
the request with status 409.

Each operation is modelled as one atomic step, a pure function over immutable
values. Most operations of the original run entirely under one lock. Three do
not, and atomic steps are still sound for them:

- The producer tests its counter before it takes the lock
  (quota_producer.go:25-27). Only the producer itself ever decrements that
  counter, so a positive value it has read stays positive until its own
  decrement.
- A collector pass takes the lock `n + 1` separate times
  (quota_collector.go:24-31). The pass is modelled without releases invoked in
  between (see "Left out").
- Serving a request runs in three parts. `Guarantee` runs under the reserved
  manager's lock (filter.go:28, manager.go:12-13). `Enqueue` then runs under
  the drainer's lock (filter.go:37, queue_drainer.go:95-96). The wait happens
  outside any lock. `Filters.Serve` takes the first two parts as one step. This
  is sound because a failed guarantee changes nothing, and the two locked
  sections touch disjoint state: the reserved counters and the drainer. The
  wait is the `WaitResult` input.

The modelling choices:

- A waiter's delivery channel is an opaque `WaiterId`.
- A release callback is a `Token` that names the counter its invocation
  increments.
- The random weighted choice is an explicit `Draw`. It holds the map
  iteration order and an integer draw `r` with `0 <= r <= total weight`.

Modules, one per source file:

| module | file | models |
|---|---|---|
| `Types` | types.dfy | priority bands (Top = 0 … Lowest = 5), `Bucket`, `ExtraBucket`, bindings, subjects, tokens, notifications |
| `WrrQueues` | wrr_queue.dfy | the per-band weighted queue: `enqueue`, `dequeueDirectly`, weighted `dequeue` |
| `QueueDrainers` | queue_drainer.dfy | the drainer: the admission ceiling and the handling of one notification |
| `Rules` | rule.dfy | `match` and `findMatchedBucket` |
| `ReservedQuota` | reserved_quota.dfy | the reserved-quota manager's guarantee and its release |
| `QuotaProducers` | quota_producer.dfy | one iteration of a band producer, its release, and quota conservation |
| `QuotaCollectors` | quota_collector.dfy | the collector's guarantee and one shared-quota distribution pass |
| `Filters` | filter.dfy | filter construction and the `Serve` decision |

## Model

| member | source | states |
|---|---|---|
| `WrrQueues.NewWRRQueue` | queue_drainer.go:107-117 | a new queue has no waiters and one weight per bucket name; when names repeat, the last bucket's weight wins |
| `WrrQueues.Enqueue` | queue_drainer.go:126-131 | the waiter is appended at the tail of FIFO `key`; every other FIFO and the weights are unchanged; the waiter count grows by one |
| `WrrQueues.DequeueDirectly` | queue_drainer.go:166-174 | an empty FIFO gives `Empty` and nothing changes; otherwise the head is returned, the tail keeps its order, and every other key is untouched |
| `WrrQueues.Select` | queue_drainer.go:150-163 | the selection loop returns the first waiting key whose running weight reaches the draw; for a draw no larger than the total weight, it runs past the end only when no key from its start onwards is waiting |
| `WrrQueues.Dequeue` | queue_drainer.go:133-164 | for any iteration order and any draw `0 <= r <= total`: `Empty` exactly when no FIFO keyed in the weights has a waiter; otherwise it pops the head of exactly one waiting FIFO and leaves everything else unchanged, even when every waiting bucket has weight 0 (as the extra bucket does) |
| `WrrQueues.DequeueDrawInterval` | queue_drainer.go:142-160 | every draw in the interval (weight before the key, that plus the key's weight] picks that key, so among the draws `r > 0` each key's share equals its weight; the draw `r = 0` also picks the first waiting key |
| `WrrQueues.DequeueZeroDrawPicksFirstWaiting` | queue_drainer.go:150-158 | a draw of 0 picks the first waiting key of the order, whatever its weight |
| `WrrQueues.AppendKeepsDistinct` | queue_drainer.go:126-131 | appending a waiter held nowhere in the queue keeps every waiter at a single position, and the held waiters become the old ones plus the new one |
| `WrrQueues.PopKeepsDistinct` | queue_drainer.go:166-173 | popping a head, here or at line 158, keeps the waiters distinct; the popped waiter was held and is held no longer, and no waiter is added |
| `WrrQueues.TotalWeightOrderIndependent` | queue_drainer.go:142-148 | the total weight is the same for every iteration order of the weight map |
| `QueueDrainers.BandsPartitionShared` | queue_drainer.go:12-18 | the per-band sums of shared quota add up to the overall total |
| `QueueDrainers.NewQueueDrainer` | queue_drainer.go:9-31 | a new drainer has a zero counter and no waiters, one fresh queue per band, and a ceiling equal to the sum of the per-band shared quota |
| `QueueDrainers.NewQueueDrainerConsistent` | queue_drainer.go:20-30 | a new drainer satisfies the drainer invariant, and no waiter is queued in it |
| `QueueDrainers.Enqueue` | queue_drainer.go:94-105 | it rejects with nothing changed exactly when `queueLength > maxQueueLength`; otherwise the counter grows by one and the waiter is appended to FIFO `bkt.name` of band `bkt.priority`, with every other band unchanged |
| `QueueDrainers.SharedLoop` | queue_drainer.go:66-81 | the loop as written, over `j` = Top … band, always dequeues from the notification's own band; its result equals a single dequeue with the first draw, whatever the loop bound |
| `QueueDrainers.Step` | queue_drainer.go:49-82 | each notification ends in exactly one of two ways. Either one waiter is granted and `queueLength` drops by one, or the release is invoked and nothing changes. A reserved notification grants only the head of FIFO `bktName` in its own band, and releases exactly when that FIFO is empty. A shared notification grants exactly when its own band has a waiter. |
| `QueueDrainers.EnqueuePreservesConsistent` | queue_drainer.go:97-103 | admitting a waiter that is not queued yet (each admission makes a new channel, line 102) keeps the invariant. The invariant: the counter equals the number of queued waiters, it is at most the ceiling plus one, and no waiter is queued at two places. The queued waiters become the old ones plus the admitted one. |
| `QueueDrainers.StepPreservesConsistent` | queue_drainer.go:55-80 | handling a notification keeps the invariant, so the counter never goes negative. A granted waiter was queued before and is queued no longer. No waiter becomes queued. |
| `QueueDrainers.GrantedAtMostOnce` | queue_drainer.go:55-80 | of two notifications handled in a row, both can grant only if they grant different waiters |
| `QueueDrainers.Run` | queue_drainer.go:43-105 | a history of admissions and notifications is run one event at a time; a rejected admission changes nothing; the granted waiters are recorded in grant order and only ever extended |
| `QueueDrainers.RunGrantsEachWaiterOnce` | queue_drainer.go:55-103 | from any drainer satisfying the invariant, over any history whose admissions each use a new waiter (each admission makes a new channel, line 102), the granted waiters are pairwise distinct |
| `QueueDrainers.HistoryGrantsEachWaiterOnce` | queue_drainer.go:9-105 | from a new drainer, over any history whose admissions use pairwise different waiters, no delivery channel receives two releases |
| `QueueDrainers.CeilingAdmitsOneOverMax` | queue_drainer.go:97-101 | with the counter at the ceiling, one more waiter is admitted and only the next one is rejected |
| `QueueDrainers.SharedNeverBorrows` | queue_drainer.go:70-80 | when its own band has no waiter, a shared notification releases at once, even if more urgent bands have waiters |
| `Rules.Match` | rule.go:31-55 | true exactly when some rule whose field is `user.name`, `namespace` or `verb` lists the subject's value for that field |
| `Rules.EmptyBindingNeverMatches` | rule.go:32-54 | a binding with no rules never matches |
| `Rules.UnknownFieldIgnored` | rule.go:33-52 | deleting a rule whose field is not one of the three known ones never changes the verdict |
| `Rules.ScanBand` | rule.go:22-26 | within one band, it finds the first matching binding in list order, or reports that none matches |
| `Rules.ScanBands` | rule.go:21-27 | scanning bands in increasing order, it finds the first match in (band, position) order, or reports that none matches |
| `Rules.FirstMatch` | rule.go:21-28 | it finds the first matching binding over all bands; `None` exactly when no binding matches |
| `Rules.FindMatchedBucket` | rule.go:19-29 | it returns the target of the first matching binding, or `ExtraBucket` when nothing matches; it always yields a bucket when every binding's target is known |
| `Rules.MoreUrgentBandWins` | rule.go:21-26 | any matching binding is preceded or equalled by the chosen one, so a match in a lower-ordinal band beats every match in a higher-ordinal band |
| `ReservedQuota.Guarantee` | manager.go:10-23 | succeeds exactly when the bucket's counter is `> 0`, an absent key counting as 0; on success that counter drops by one, all others are unchanged, and the release names the bucket; on failure there is no release |
| `ReservedQuota.Release` | manager.go:16-20 | invoking the release raises that bucket's counter by one and changes nothing else |
| `ReservedQuota.GuaranteeThenReleaseRestores` | manager.go:14-20 | a guarantee followed by its release gives back the original map |
| `ReservedQuota.GuaranteeKeepsNonNegative` | manager.go:14-15 | counters never go negative: the decrement follows the positive check |
| `QuotaProducers.Step` | quota_producer.go:25-39 | a notification is emitted exactly when the remaining quota is `> 0`; it carries the producer's own band, and the remaining quota drops by one; otherwise nothing changes |
| `QuotaProducers.Release` | quota_producer.go:31-35 | the release raises the remaining shared quota by one and keeps the band |
| `QuotaProducers.ReplayConserves` | quota_producer.go:25-36 | along any history of steps and releases, the remaining quota plus the emitted-but-unreleased units stays constant; the remaining quota stays non-negative |
| `QuotaProducers.FreshProducerConserves` | quota_producer.go:27-34 | for a producer started with quota `q`, the remaining quota plus the outstanding units is always `q` |
| `QuotaCollectors.Guarantee` | quota_collector.go:43-56 | succeeds exactly when the bucket's reserved counter is `> 0`, then decrements only that counter; the shared map is untouched; on failure there is no release |
| `QuotaCollectors.Release` | quota_collector.go:33-53 | a release raises exactly one counter by one (a reserved one or a shared one); the other map is unchanged |
| `QuotaCollectors.GuaranteeThenReleaseRestores` | quota_collector.go:45-53 | a reserved guarantee followed by the invocation of its release gives back the original collector, both maps included |
| `QuotaCollectors.DistributePass` | quota_collector.go:22-38 | one pass over a bucket snapshots its shared counter `n` and emits exactly `n` releases for that bucket (none when `n <= 0`); it lowers that counter by `n` and leaves every other counter and the reserved map alone |
| `QuotaCollectors.ReleaseAllRestores` | quota_collector.go:28-37 | invoking `k` of a bucket's shared releases raises its shared counter by `k` and changes nothing else |
| `QuotaCollectors.PassThenReleaseRestoresCounts` | quota_collector.go:25-37 | a pass followed by the invocation of all its releases leaves every shared counter as it was |
| `Filters.AllBuckets` | filter.go:62 | the bucket list is the input list with `ExtraBucket` appended last |
| `Filters.BucketsByName` | filter.go:84-86 | every configured name maps to the last bucket with that name |
| `Filters.ReservedCounters` | filter.go:84-88 | there is one counter per bucket name, and it starts at the `ReservedQuota` of the last bucket with that name |
| `Filters.GroupBindings` | filter.go:93-96 | each band's list holds exactly the bindings whose target lies in that band, in input order; it fails exactly when some binding names an unknown bucket |
| `Filters.OfBandMembers` | filter.go:93-96 | a binding is in band `b`'s list exactly when its target is known and lies in band `b` |
| `Filters.BandProducers` | filter.go:105-114 | there is one producer for each band 0 … Lowest; producer `i` has band `i` and starts with the shared quota of the buckets in band `i` |
| `Filters.NewFilter` | filter.go:59-138 | construction uses the list with `ExtraBucket` appended for buckets, reserved counters, drainer and producers; it groups the bindings by their target's band; it fails exactly when a binding names an unknown bucket; the result is ready to serve |
| `Filters.ProducersCoverCeiling` | filter.go:73-114 | the band producers start with exactly `maxQueueLength`, which is the total shared quota including `ExtraBucket`'s 10 |
| `Filters.ExtraBucketConfigured` | filter.go:62-88 | `__extra` maps to `ExtraBucket`; its reserved counter is 0; the Lowest producer holds at least its 10 shared units |
| `Filters.BindingInItsTargetsBand` | filter.go:93-96 | a configured binding is in band `b`'s list exactly when its target bucket's priority is `b` |
| `Filters.Serve` | filter.go:22-53 | the order is: reserved guarantee, then enqueue, then wait. A guaranteed request runs the delegate and then the release, and is never enqueued. A rejected enqueue writes 409 and falls through to a wait that only the timer ends, which writes 409 again. A timed-out wait writes 409 without running the delegate. A grant runs the delegate and then the received release. Serving never changes the buckets, the bindings or the producers. |
| `Filters.ServeAdmitsOrTurnsAway` | filter.go:28-51 | every request either runs the delegate once, followed by exactly one release, or never runs it, invokes no release and writes only 409 |
| `Filters.ReservedServeRoundTrip` | filter.go:28-34 | a request served on reserved quota leaves the drainer untouched, and its deferred release restores the reserved counters |
| `Filters.ProduceThenDrainConserves` | queue_drainer.go:66-81 | a producer's unit handed to the drainer is either granted to a waiter, who holds the producer's token, or released at once, which restores the producer exactly |

## Where the code departs from its own evident intent

The model follows the code in each case below. Each case cites the evidence in
the code itself.

- **Shared notifications do not borrow upward.** The loop at
  queue_drainer.go:70 runs its index `j` from the top band down to the
  notification's band `p`, which suggests offering the unit to bands Top … `p`
  in turn. But every iteration calls `PopByPriority(quota.priority)` (line 71)
  and never uses `j`. So only the notification's own band is ever consulted
  (`QueueDrainers.SharedLoop`, `QueueDrainers.SharedNeverBorrows`).
- **The ceiling admits one more than its maximum.** The field is named
  `maxQueueLength` and is set to the total shared quota (queue_drainer.go:26,
  filter.go:100). Admission rejects only when `queueLength > maxQueueLength`
  (queue_drainer.go:97), so `max + 1` waiters are admitted
  (`QueueDrainers.CeilingAdmitsOneOverMax`).
- **A rejected request is not answered at once.** filter.go:38-40 treats a nil
  channel as too many requests and writes 409. There is no `return` after it. The
  function then waits on the nil channel, which never delivers, until the
  ten-minute timer fires and 409 is written a second time (`Filters.Serve`).
- **The extra bucket has weight 0.** `ExtraBucket` (types.go:16-20) sets no
  `Weight`, and weights are meant to divide draws in proportion
  (queue_drainer.go:142-160). The weighted dequeue still serves a weight-0
  bucket when it is the only waiting one (`WrrQueues.Dequeue`,
  `WrrQueues.DequeueZeroDrawPicksFirstWaiting`).
- **Reserved notifications are handled but never produced.** The drainer has
  a `reservedQuotaNotification` case (queue_drainer.go:51-65). Yet the filter
  takes reserved quota directly through `Guarantee` (filter.go:28), and no
  code in the repository emits that notification.
- **A shared producer keeps one counter per band,** not one per bucket
  (quota_producer.go:13).

## Left out

- Goroutines, channels and locks. Each locked operation is one pure step.
  The infinite `Run` loops of the drainer, the producers and the collector are
  modelled one iteration at a time. The goroutine that delivers a grant
  (queue_drainer.go:57-59, 73-75) is the `Granted` outcome.
- `Filter.Run`, which starts the workers (filter.go:140-146). It is
  concurrency only.
- Sleeps and timers: the drainer's 20 ms pause, the producer's idle sleep and
  the ten-minute ticker. A timeout is the `TimedOut` input of `Serve`.
- `rand.Float64` and the `float64` weight map. They are replaced by integer
  weights, an explicit iteration order and an integer draw `0 <= r <= total`.
  With integer weights, every running sum at queue_drainer.go:156-157 is an
  integer. So a real draw `x` in `[0, total)` picks the same key as the integer
  `ceil(x)`, and `ceil(x)` lies in `0 … total`.
- `getSubject`'s reading of request headers. The subject is a plain record.
  Response writes are `WriteStatus` effects. The sleeping delegate and the
  `fmt` printing have no model.
- cmd/main.go: flags, YAML loading and the HTTP server.
- Waiter identities are not generated. Each admission in the code makes a new
  channel (queue_drainer.go:102). The model states this as a precondition. For
  one admission (`QueueDrainers.EnqueuePreservesConsistent`), the waiter must
  not be queued yet. Over a history (`QueueDrainers.RunGrantsEachWaiterOnce`),
  each admitted waiter must be new: not queued, not granted before, and not
  admitted elsewhere in the history.
- The orphaned wait slot after a timeout. It only arises from the
  interleaving of the drainer and a timed-out request.
- The collector's outer loop, which iterates its `BucketsByName` map
  (quota_collector.go:21-22). One per-bucket pass is modelled; which buckets the
  loop visits, and in what order, is left to the caller. Its
  `BucketBindingsByPriority` field is unused.
- The `remainingSharedQuotasByBucket` map that the filter constructor fills
  but never uses (filter.go:81, 88). Also the `sharedQuotaManager` wrapper,
  whose producers and drainer are fields of `Filter`.
- `Receive`, the notification types and the `quotaReleasingFuncByPriority`
  field, which are referenced but never defined. A producer's `Receive` call is
  its emitted `Notification`. The two notification kinds are `Reserved` and
  `Shared`, with the fields the drainer reads.
- Negative quotas and weights, and priorities outside 0 … 5. The types exclude
  them (`nat` fields and the `Band` subset type). In the code, a priority
  outside that range has no queue and no producer.
- Filters.Serve: the delivered release is an input. The model does not tie
  it to a drainer step that granted this waiter; `QueueDrainers.Step` and
  `Filters.ProduceThenDrainConserves` cover that side.
- QuotaProducers.ReplayConserves: it covers sequential histories only,
  which the producer's lock makes the only possible ones. Releases are counted
  per producer, not per token.
- QuotaCollectors.DistributePass: releases invoked during a pass are not
  interleaved, so the counter ends the pass exactly `n` lower.

=== FILE: filter.dfy ===
/**
 * The admission filter: construction from the configured buckets and
 * bindings, and the decision one request goes through (classify, try reserved
 * quota, enqueue or reject, then run the delegate on a grant or answer 409 on
 * timeout). Writes to the response, the delegate and the release callbacks
 * are recorded as a list of effects.
 */
module Filters {
  import opened Types
  import opened WrrQueues
  import opened QueueDrainers
  import opened Rules
  import RQ = ReservedQuota
  import QP = QuotaProducers

  /** The status written for too many requests and for a timed-out wait. */
  const TooManyRequests: int := 409

  datatype Filter = Filter(
    buckets: map<string, Bucket>,
    bucketBindingsByPriorities: map<Band, seq<Binding>>,
    reserved: map<string, int>,
    drainer: QueueDrainer,
    producers: seq<QP.QuotaProducer>)

  /** The bucket list every component is built from: the configured buckets, then the extra bucket. */
  function AllBuckets(bkts: seq<Bucket>): (all: seq<Bucket>)
    ensures |all| == |bkts| + 1 && all[..|bkts|] == bkts && all[|bkts|] == ExtraBucket
  {
    bkts + [ExtraBucket]
  }

  /** Buckets by name; a later bucket overwrites an earlier one of the same name. */
  function BucketsByName(bkts: seq<Bucket>): (m: map<string, Bucket>)
    ensures m.Keys == Names(bkts)
    ensures forall i :: 0 <= i < |bkts| && LastWithName(bkts, i) ==> m[bkts[i].name] == bkts[i]
  {
    if |bkts| == 0 then map[]
    else
      var last := bkts[|bkts| - 1];
      var m := BucketsByName(bkts[..|bkts| - 1]);
      NamesSnoc(bkts);
      LastWins(bkts, (b: Bucket) => b, m, m[last.name := last]);
      m[last.name := last]
  }

  /** Reserved counters seeded from each bucket's reserved quota (later buckets of the same name overwrite). */
  function ReservedCounters(bkts: seq<Bucket>): (m: map<string, int>)
    ensures m.Keys == Names(bkts)
    ensures forall i :: 0 <= i < |bkts| && LastWithName(bkts, i) ==> m[bkts[i].name] == bkts[i].reservedQuota
  {
    if |bkts| == 0 then map[]
    else
      var last := bkts[|bkts| - 1];
      var m := ReservedCounters(bkts[..|bkts| - 1]);
      NamesSnoc(bkts);
      LastWins(bkts, (b: Bucket) => b.reservedQuota as int, m, m[last.name := last.reservedQuota]);
      m[last.name := last.reservedQuota]
  }

  /** The bindings whose target bucket is known and lies in band `b`, in input order. */
  function OfBand(byName: map<string, Bucket>, bindings: seq<Binding>, b: Band): seq<Binding>
  {
    if |bindings| == 0 then []
    else
      var x := bindings[0];
      (if x.bucketRef in byName && byName[x.bucketRef].priority == b then [x] else [])
        + OfBand(byName, bindings[1..], b)
  }

  lemma {:induction false} OfBandSnoc(byName: map<string, Bucket>, bindings: seq<Binding>, x: Binding, b: Band)
    ensures OfBand(byName, bindings + [x], b) ==
              OfBand(byName, bindings, b) + (if x.bucketRef in byName && byName[x.bucketRef].priority == b then [x] else [])
  {
    if |bindings| > 0 {
      assert (bindings + [x])[1..] == bindings[1..] + [x];
      OfBandSnoc(byName, bindings[1..], x, b);
    } else {
      assert bindings + [x] == [x];
    }
  }

  /** A binding is in band `b`'s list exactly when it is configured, its target is known, and the target is in band `b`. */
  lemma {:induction false} OfBandMembers(byName: map<string, Bucket>, bindings: seq<Binding>, b: Band, x: Binding)
    ensures x in OfBand(byName, bindings, b) <==>
              x in bindings && x.bucketRef in byName && byName[x.bucketRef].priority == b
  {
    if |bindings| > 0 {
      OfBandMembers(byName, bindings[1..], b, x);
      assert bindings == [bindings[0]] + bindings[1..];
    }
  }

  /**
   * Groups the bindings by their target bucket's band, appending in input
   * order; `None` when a binding names an unknown bucket (a nil dereference
   * in Go).
   */
  function GroupBindings(byName: map<string, Bucket>, bindings: seq<Binding>): (r: Option<map<Band, seq<Binding>>>)
    ensures r.None? <==> exists i :: 0 <= i < |bindings| && bindings[i].bucketRef !in byName
    ensures r.Some? ==> forall b: Band :: BandBindings(r.value, b) == OfBand(byName, bindings, b)
  {
    if |bindings| == 0 then Some(map[])
    else
      var init := bindings[..|bindings| - 1];
      var last := bindings[|bindings| - 1];
      assert bindings == init + [last];
      assert forall i :: 0 <= i < |init| ==> init[i] == bindings[i];
      match GroupBindings(byName, init)
      case None => None
      case Some(m) =>
        if last.bucketRef !in byName then None
        else
          var p := byName[last.bucketRef].priority;
          var m2 := m[p := BandBindings(m, p) + [last]];
          assert forall b: Band :: BandBindings(m2, b) == OfBand(byName, bindings, b) by {
            forall b: Band
              ensures BandBindings(m2, b) == OfBand(byName, bindings, b)
            {
              OfBandSnoc(byName, init, last, b);
            }
          }
          Some(m2)
  }

  /** What the filter needs to serve: one queue per band and every binding target known. */
  ghost predicate WellFormed(f: Filter)
  {
    HasAllBands(f.drainer) && AllTargetsKnown(f.buckets, f.bucketBindingsByPriorities)
  }

  /** One producer per band, seeded with that band's shared quota. */
  function BandProducers(all: seq<Bucket>): (ps: seq<QP.QuotaProducer>)
    ensures |ps| == NumBands
    ensures forall i :: 0 <= i < NumBands ==> ps[i] == QP.QuotaProducer(i, BandShared(all, i))
  {
    seq(NumBands, (i: int) requires 0 <= i < NumBands => QP.QuotaProducer(i, BandShared(all, i)))
  }

  /** Every binding names a bucket of the configuration (the extra bucket included): construction succeeds. */
  predicate RefsKnown(bkts: seq<Bucket>, bindings: seq<Binding>)
  {
    forall i :: 0 <= i < |bindings| ==> bindings[i].bucketRef in Names(AllBuckets(bkts))
  }

  /** Builds the filter; `None` when a binding names a bucket that is not configured. */
  function NewFilter(bkts: seq<Bucket>, bindings: seq<Binding>): (r: Option<Filter>)
    ensures r.None? <==> exists i :: 0 <= i < |bindings| && bindings[i].bucketRef !in Names(AllBuckets(bkts))
    ensures r.Some? ==>
              && r.value.buckets == BucketsByName(AllBuckets(bkts))
              && r.value.reserved == ReservedCounters(AllBuckets(bkts))
              && r.value.drainer == NewQueueDrainer(AllBuckets(bkts))
              && r.value.producers == BandProducers(AllBuckets(bkts))
              && (forall b: Band :: BandBindings(r.value.bucketBindingsByPriorities, b)
                                      == OfBand(r.value.buckets, bindings, b))
              && WellFormed(r.value)
  {
    var all := AllBuckets(bkts);
    var byName := BucketsByName(all);
    match GroupBindings(byName, bindings)
    case None => None
    case Some(bbp) =>
      var f := Filter(byName, bbp, ReservedCounters(all), NewQueueDrainer(all), BandProducers(all));
      assert AllTargetsKnown(byName, bbp) by {
        forall b: Band, i | 0 <= i < |BandBindings(bbp, b)|
          ensures BandBindings(bbp, b)[i].bucketRef in byName
        {
          OfBandMembers(byName, bindings, b, BandBindings(bbp, b)[i]);
        }
      }
      Some(f)
  }

  /** Sum of the producers' remaining shared quota. */
  function ProducersRemaining(ps: seq<QP.QuotaProducer>): int
  {
    if |ps| == 0 then 0 else ProducersRemaining(ps[..|ps| - 1]) + ps[|ps| - 1].remainingSharedQuota
  }

  lemma {:induction false} ProducersRemainingIsBandSum(all: seq<Bucket>, n: nat)
    requires n <= NumBands
    ensures ProducersRemaining(BandProducers(all)[..n]) == SumBandShared(all, n)
  {
    if n > 0 {
      var ps := BandProducers(all);
      assert ps[..n][..n - 1] == ps[..n - 1];
      ProducersRemainingIsBandSum(all, n - 1);
    }
  }

  /**
   * The band producers together start with exactly the drainer's ceiling: the
   * total shared quota of all buckets, extra bucket included.
   */
  lemma ProducersCoverCeiling(bkts: seq<Bucket>, bindings: seq<Binding>)
    requires RefsKnown(bkts, bindings)
    ensures ProducersRemaining(NewFilter(bkts, bindings).value.producers)
              == NewFilter(bkts, bindings).value.drainer.maxQueueLength
              == TotalShared(bkts) + ExtraBucket.sharedQuota
  {
    var f := NewFilter(bkts, bindings).value;
    BandSumsCoverTotal(AllBuckets(bkts));
    assert AllBuckets(bkts)[..|bkts|] == bkts;
  }

  lemma BandSumsCoverTotal(all: seq<Bucket>)
    ensures ProducersRemaining(BandProducers(all)) == NewQueueDrainer(all).maxQueueLength
    ensures |all| > 0 ==> TotalShared(all) == TotalShared(all[..|all| - 1]) + all[|all| - 1].sharedQuota
    ensures NewQueueDrainer(all).maxQueueLength == TotalShared(all)
  {
    ProducersRemainingIsBandSum(all, NumBands);
    assert BandProducers(all)[..NumBands] == BandProducers(all);
    BandsPartitionShared(all);
  }

  /**
   * `__extra` always maps to the extra bucket, even over a configured bucket of
   * that name, since the extra bucket is appended last; its reserved counter is
   * 0 and its band's producer holds at least its shared quota.
   */
  lemma ExtraBucketConfigured(bkts: seq<Bucket>, bindings: seq<Binding>)
    requires RefsKnown(bkts, bindings)
    ensures var f := NewFilter(bkts, bindings).value;
            && f.buckets[ExtraBucket.name] == ExtraBucket
            && f.reserved[ExtraBucket.name] == 0
            && f.producers[Lowest].remainingSharedQuota >= ExtraBucket.sharedQuota
  {
    var all := AllBuckets(bkts);
    assert LastWithName(all, |bkts|);
    ExtraBandShare(all);
  }

  lemma ExtraBandShare(all: seq<Bucket>)
    requires |all| > 0 && all[|all| - 1] == ExtraBucket
    ensures BandShared(all, Lowest) >= ExtraBucket.sharedQuota
  {
  }

  /** Each configured binding with a known target is in exactly its target's band list. */
  lemma BindingInItsTargetsBand(bkts: seq<Bucket>, bindings: seq<Binding>, x: Binding, b: Band)
    requires RefsKnown(bkts, bindings)
    requires x in bindings
    ensures var f := NewFilter(bkts, bindings).value;
            x in BandBindings(f.bucketBindingsByPriorities, b) <==> f.buckets[x.bucketRef].priority == b
  {
    var f := NewFilter(bkts, bindings).value;
    OfBandMembers(f.buckets, bindings, b, x);
  }

  /** What serving a request does, in order. */
  datatype Effect = RunDelegate | InvokeRelease(release: Token) | WriteStatus(code: int)

  /** How a wait on the delivery channel ends: a delivered release, or the timer. */
  datatype WaitResult = Delivered(release: Token) | TimedOut

  datatype Served = Served(filter: Filter, effects: seq<Effect>)

  /** The request was admitted: the delegate ran, then `t` was invoked, and nothing else happened. */
  predicate AdmittedWith(effects: seq<Effect>, t: Token)
  {
    effects == [RunDelegate, InvokeRelease(t)]
  }

  /** The request was turned away: only 409 statuses were written, at least one. */
  predicate TurnedAway(effects: seq<Effect>)
  {
    |effects| > 0 && forall i :: 0 <= i < |effects| ==> effects[i] == WriteStatus(TooManyRequests)
  }

  /**
   * Serves one request with subject `sub`. `waiter` names the delivery channel
   * created if the request is enqueued; `wait` says how the wait on it ends.
   * When the enqueue is rejected the channel is nil, which never delivers, so
   * only the timer can end the wait.
   */
  function Serve(f: Filter, sub: Subject, waiter: WaiterId, wait: WaitResult): (s: Served)
    requires WellFormed(f)
    ensures WellFormed(s.filter)
    ensures && s.filter.buckets == f.buckets
            && s.filter.bucketBindingsByPriorities == f.bucketBindingsByPriorities
            && s.filter.producers == f.producers
    ensures var bkt := FindMatchedBucket(sub, f.buckets, f.bucketBindingsByPriorities).value;
            && (RQ.Remaining(f.reserved, bkt.name) > 0 ==>
                  && AdmittedWith(s.effects, ReservedUnit(bkt.name))
                  && s.filter.drainer == f.drainer
                  && RQ.ChangedOnly(f.reserved, s.filter.reserved, bkt.name, -1))
            && (RQ.Remaining(f.reserved, bkt.name) <= 0 ==>
                  && s.filter.reserved == f.reserved
                  && (f.drainer.queueLength > f.drainer.maxQueueLength ==>
                        s.filter == f && s.effects == [WriteStatus(TooManyRequests), WriteStatus(TooManyRequests)])
                  && (f.drainer.queueLength <= f.drainer.maxQueueLength ==>
                        && s.filter.drainer == QueueDrainers.Enqueue(f.drainer, bkt, waiter).value
                        && (wait.TimedOut? ==> s.effects == [WriteStatus(TooManyRequests)])
                        && (wait.Delivered? ==> AdmittedWith(s.effects, wait.release))))
  {
    var bkt := FindMatchedBucket(sub, f.buckets, f.bucketBindingsByPriorities).value;
    match RQ.Guarantee(f.reserved, bkt)
    case Guaranteed(t, counters) =>
      Served(f.(reserved := counters), [RunDelegate, InvokeRelease(t)])
    case Denied =>
      match QueueDrainers.Enqueue(f.drainer, bkt, waiter)
      case None =>
        Served(f, [WriteStatus(TooManyRequests), WriteStatus(TooManyRequests)])
      case Some(d) =>
        var effects := match wait
                       case Delivered(t) => [RunDelegate, InvokeRelease(t)]
                       case TimedOut => [WriteStatus(TooManyRequests)];
        Served(f.(drainer := d), effects)
  }

  /**
   * Every request ends one of two ways: the delegate runs once and exactly one
   * release is invoked after it, or the delegate never runs, no release is
   * invoked and only 409 is written.
   */
  lemma ServeAdmitsOrTurnsAway(f: Filter, sub: Subject, waiter: WaiterId, wait: WaitResult)
    requires WellFormed(f)
    ensures var s := Serve(f, sub, waiter, wait);
            (exists t :: AdmittedWith(s.effects, t)) != TurnedAway(s.effects)
    ensures var s := Serve(f, sub, waiter, wait);
            RunDelegate in s.effects <==> !TurnedAway(s.effects)
  {
    var s := Serve(f, sub, waiter, wait);
    if !TurnedAway(s.effects) {
      var bkt := FindMatchedBucket(sub, f.buckets, f.bucketBindingsByPriorities).value;
      var t := if RQ.Remaining(f.reserved, bkt.name) > 0 then ReservedUnit(bkt.name) else wait.release;
      assert AdmittedWith(s.effects, t);
    } else {
      assert s.effects[0] == WriteStatus(TooManyRequests);
    }
  }

  /** A request served on reserved quota is never enqueued, and invoking its release restores the counters. */
  lemma ReservedServeRoundTrip(f: Filter, sub: Subject, waiter: WaiterId, wait: WaitResult)
    requires WellFormed(f)
    requires var bkt := FindMatchedBucket(sub, f.buckets, f.bucketBindingsByPriorities).value;
             RQ.Remaining(f.reserved, bkt.name) > 0
    ensures var s := Serve(f, sub, waiter, wait);
            && s.filter.drainer == f.drainer
            && s.effects[1].InvokeRelease? && s.effects[1].release.ReservedUnit?
            && RQ.Release(s.filter.reserved, s.effects[1].release) == f.reserved
  {
    var bkt := FindMatchedBucket(sub, f.buckets, f.bucketBindingsByPriorities).value;
    RQ.GuaranteeThenReleaseRestores(f.reserved, bkt);
  }

  /**
   * A unit produced by a band producer and handed to the drainer is either
   * granted to a waiter (who holds the producer's token) or released at once,
   * which restores the producer exactly.
   */
  lemma ProduceThenDrainConserves(p: QP.QuotaProducer, d: QueueDrainer, draws: seq<Draw>)
    requires HasAllBands(d) && p.remainingSharedQuota > 0
    requires DrawsFor(d, QP.Step(p).emitted.value, draws)
    ensures var t := QP.Step(p);
            var s := Step(d, t.emitted.value, draws);
            && s.outcome.release == SharedBandUnit(p.priority)
            && (s.outcome.ReleasedNow? ==> QP.Release(t.producer) == p && s.drainer == d)
            && (s.outcome.Granted? ==> t.producer.remainingSharedQuota + 1 == p.remainingSharedQuota)
  {
  }
}

=== FILE: queue_drainer.dfy ===
/**
 * The drainer: the admission ceiling on waiters, and the handling of one quota
 * notification, which either grants one waiter or releases the unit at once.
 * The drainer's lock, its receive loop and the goroutine that delivers a grant
 * are left to the caller; one notification is one pure step.
 */
module QueueDrainers {
  import opened Types
  import opened WrrQueues

  /** Waiter count, its ceiling, and one weighted queue per band (indexed by band). */
  datatype QueueDrainer = QueueDrainer(queueLength: int, maxQueueLength: int, queueByPriorities: seq<WRRQueue>)

  /** What one notification ends in: a waiter receives the release, or the release is invoked now. */
  datatype Outcome = Granted(waiter: WaiterId, release: Token) | ReleasedNow(release: Token)

  datatype StepResult = StepResult(drainer: QueueDrainer, outcome: Outcome)

  predicate HasAllBands(d: QueueDrainer)
  {
    |d.queueByPriorities| == NumBands
  }

  /** Total number of waiters over all bands. */
  ghost function SumSizes(qs: seq<WRRQueue>): nat
  {
    if |qs| == 0 then 0 else SumSizes(qs[..|qs| - 1]) + Size(qs[|qs| - 1])
  }

  ghost function Backlog(d: QueueDrainer): nat
  {
    SumSizes(d.queueByPriorities)
  }

  /** Waiter `w` is queued in some band of `d`. */
  ghost predicate Queued(d: QueueDrainer, w: WaiterId)
    requires HasAllBands(d)
  {
    exists b: Band :: Holds(d.queueByPriorities[b], w)
  }

  /** Every queued waiter sits at exactly one place: one band, one FIFO, one position. */
  ghost predicate DistinctWaiters(d: QueueDrainer)
    requires HasAllBands(d)
  {
    && (forall b: Band :: Distinct(d.queueByPriorities[b]))
    && (forall b1: Band, b2: Band, w ::
          Holds(d.queueByPriorities[b1], w) && Holds(d.queueByPriorities[b2], w) ==> b1 == b2)
  }

  /**
   * The drainer's invariant: the counter is the number of enqueued waiters,
   * it never exceeds the ceiling by more than one, and no waiter is queued twice.
   */
  ghost predicate Consistent(d: QueueDrainer)
  {
    && HasAllBands(d)
    && d.queueLength == Backlog(d)
    && d.queueLength <= d.maxQueueLength + 1
    && DistinctWaiters(d)
  }

  /** Every band other than `band` is the same in `d` and `d2`. */
  ghost predicate OtherBandsUnchanged(d: QueueDrainer, d2: QueueDrainer, band: Band)
    requires HasAllBands(d) && HasAllBands(d2)
  {
    forall b :: 0 <= b < NumBands && b != band ==> d2.queueByPriorities[b] == d.queueByPriorities[b]
  }

  /** Sum of the shared quota of `bkts`. */
  function TotalShared(bkts: seq<Bucket>): nat
  {
    if |bkts| == 0 then 0 else TotalShared(bkts[..|bkts| - 1]) + bkts[|bkts| - 1].sharedQuota
  }

  /** Sum of the shared quota of the buckets of `bkts` in band `band`. */
  function BandShared(bkts: seq<Bucket>, band: Band): nat
  {
    if |bkts| == 0 then 0
    else
      var last := bkts[|bkts| - 1];
      BandShared(bkts[..|bkts| - 1], band) + (if last.priority == band then last.sharedQuota else 0)
  }

  /** Sum of the band sums of the bands below `upTo`. */
  function SumBandShared(bkts: seq<Bucket>, upTo: nat): nat
    requires upTo <= NumBands
  {
    if upTo == 0 then 0 else SumBandShared(bkts, upTo - 1) + BandShared(bkts, upTo - 1)
  }

  lemma {:induction false} SumBandSharedSnoc(bkts: seq<Bucket>, upTo: nat)
    requires |bkts| > 0 && upTo <= NumBands
    ensures var last := bkts[|bkts| - 1];
            SumBandShared(bkts, upTo) ==
              SumBandShared(bkts[..|bkts| - 1], upTo) + (if last.priority < upTo then last.sharedQuota else 0)
  {
    if upTo > 0 {
      SumBandSharedSnoc(bkts, upTo - 1);
    }
  }

  lemma {:induction false} ZeroBandShared(bkts: seq<Bucket>, upTo: nat)
    requires |bkts| == 0 && upTo <= NumBands
    ensures SumBandShared(bkts, upTo) == 0
  {
    if upTo > 0 {
      ZeroBandShared(bkts, upTo - 1);
    }
  }

  /** The per-band sums partition the total: every bucket is in exactly one band. */
  lemma {:induction false} BandsPartitionShared(bkts: seq<Bucket>)
    ensures SumBandShared(bkts, NumBands) == TotalShared(bkts)
  {
    if |bkts| > 0 {
      var last := bkts[|bkts| - 1];
      SumBandSharedSnoc(bkts, NumBands);
      assert last.priority < NumBands;
      BandsPartitionShared(bkts[..|bkts| - 1]);
      assert TotalShared(bkts) == TotalShared(bkts[..|bkts| - 1]) + last.sharedQuota;
    } else {
      assert SumBandShared(bkts, NumBands) == 0 by {
        ZeroBandShared(bkts, NumBands);
      }
    }
  }

  /** The same queue in every band. */
  function EveryBand(q: WRRQueue): (qs: seq<WRRQueue>)
    ensures |qs| == NumBands && forall b :: 0 <= b < NumBands ==> qs[b] == q
  {
    seq(NumBands, _ => q)
  }

  /** A fresh drainer: no waiters, ceiling the total shared quota, one fresh queue per band. */
  function NewQueueDrainer(bkts: seq<Bucket>): (d: QueueDrainer)
    ensures HasAllBands(d) && d.queueLength == 0 && Backlog(d) == 0
    ensures d.maxQueueLength == SumBandShared(bkts, NumBands)
    ensures forall b :: 0 <= b < NumBands ==> d.queueByPriorities[b] == NewWRRQueue(bkts)
  {
    var q := NewWRRQueue(bkts);
    BandsPartitionShared(bkts);
    NoFifosHoldNothing(q);
    NoWaitersNoBacklog(EveryBand(q));
    QueueDrainer(0, TotalShared(bkts), EveryBand(q))
  }

  /** A fresh drainer satisfies the invariant, with no waiter queued. */
  lemma NewQueueDrainerConsistent(bkts: seq<Bucket>)
    ensures Consistent(NewQueueDrainer(bkts))
    ensures forall w :: !Queued(NewQueueDrainer(bkts), w)
  {
    var q := NewWRRQueue(bkts);
    EmptyDrainerConsistent(q, TotalShared(bkts));
    BandsPartitionShared(bkts);
    assert NewQueueDrainer(bkts) == QueueDrainer(0, TotalShared(bkts), EveryBand(q));
  }

  /** A drainer with a zero counter and the same FIFO-less queue in every band satisfies the invariant. */
  lemma EmptyDrainerConsistent(q: WRRQueue, max: nat)
    requires q.queues == map[]
    ensures Consistent(QueueDrainer(0, max, EveryBand(q)))
    ensures forall w :: !Queued(QueueDrainer(0, max, EveryBand(q)), w)
  {
    var d := QueueDrainer(0, max, EveryBand(q));
    NoFifosHoldNothing(q);
    NoWaitersNoBacklog(d.queueByPriorities);
    assert forall b: Band :: d.queueByPriorities[b] == q;
  }

  lemma {:induction false} NoWaitersNoBacklog(qs: seq<WRRQueue>)
    requires forall i :: 0 <= i < |qs| ==> Size(qs[i]) == 0
    ensures SumSizes(qs) == 0
  {
    if |qs| > 0 {
      NoWaitersNoBacklog(qs[..|qs| - 1]);
    }
  }

  lemma {:induction false} SumSizesUpdate(qs: seq<WRRQueue>, i: nat, q: WRRQueue)
    requires i < |qs|
    ensures SumSizes(qs[i := q]) + Size(qs[i]) == SumSizes(qs) + Size(q)
  {
    var n := |qs| - 1;
    if i < n {
      assert qs[i := q][..n] == qs[..n][i := q];
      SumSizesUpdate(qs[..n], i, q);
    } else {
      assert qs[i := q][..n] == qs[..n];
    }
  }

  /**
   * Admission: rejected (`None`, nothing changes) when the counter is strictly
   * above the ceiling; otherwise the counter goes up by one and the waiter is
   * appended to its bucket's FIFO in its bucket's band.
   */
  function Enqueue(d: QueueDrainer, bkt: Bucket, w: WaiterId): (r: Option<QueueDrainer>)
    requires HasAllBands(d)
    ensures r.None? <==> d.queueLength > d.maxQueueLength
    ensures r.Some? ==>
              && HasAllBands(r.value)
              && r.value.queueLength == d.queueLength + 1
              && r.value.maxQueueLength == d.maxQueueLength
              && AppendedTail(d.queueByPriorities[bkt.priority], bkt.name, w, r.value.queueByPriorities[bkt.priority])
              && OtherBandsUnchanged(d, r.value, bkt.priority)
              && Backlog(r.value) == Backlog(d) + 1
  {
    if d.queueLength > d.maxQueueLength then None
    else
      var q := d.queueByPriorities[bkt.priority];
      var q2 := WrrQueues.Enqueue(q, bkt.name, w);
      SumSizesUpdate(d.queueByPriorities, bkt.priority, q2);
      Some(d.(queueLength := d.queueLength + 1, queueByPriorities := d.queueByPriorities[bkt.priority := q2]))
  }

  /** The drainer after granting a waiter popped from band `band`, leaving `rest` there. */
  function Grant(d: QueueDrainer, band: Band, rest: WRRQueue): QueueDrainer
    requires HasAllBands(d)
  {
    d.(queueLength := d.queueLength - 1, queueByPriorities := d.queueByPriorities[band := rest])
  }

  /** Reference for a shared notification: one weighted dequeue on the notification's own band. */
  function SharedOnce(d: QueueDrainer, band: Band, draw: Draw, release: Token): StepResult
    requires HasAllBands(d)
    requires ValidDraw(d.queueByPriorities[band], draw)
  {
    match Dequeue(d.queueByPriorities[band], draw)
    case Popped(_, w, rest) => StepResult(Grant(d, band, rest), Granted(w, release))
    case Empty => StepResult(d, ReleasedNow(release))
  }

  /**
   * The shared-notification loop as written: iterations `j` = Top .. `band`,
   * each dequeueing from the notification's own band (the index is unused),
   * each with its own draw; a grant ends the loop, otherwise the release is
   * invoked after the loop.
   */
  function SharedLoop(d: QueueDrainer, band: Band, j: nat, draws: seq<Draw>, release: Token): (s: StepResult)
    requires HasAllBands(d)
    requires j <= band + 1 <= |draws|
    requires forall i :: 0 <= i < |draws| ==> ValidDraw(d.queueByPriorities[band], draws[i])
    ensures j <= band ==> s == SharedOnce(d, band, draws[j], release)
    decreases band + 1 - j
  {
    if j > band then StepResult(d, ReleasedNow(release))
    else
      match Dequeue(d.queueByPriorities[band], draws[j])
      case Popped(_, w, rest) => StepResult(Grant(d, band, rest), Granted(w, release))
      case Empty => SharedLoop(d, band, j + 1, draws, release)
  }

  /** The draws a step may consume: one valid draw on the notified band per loop iteration. */
  ghost predicate DrawsFor(d: QueueDrainer, n: Notification, draws: seq<Draw>)
    requires HasAllBands(d)
  {
    n.Shared? ==>
      && |draws| == n.priority + 1
      && forall i :: 0 <= i < |draws| ==> ValidDraw(d.queueByPriorities[n.priority], draws[i])
  }

  /** One iteration of the drainer's loop: the handling of one notification. */
  function Step(d: QueueDrainer, n: Notification, draws: seq<Draw>): (s: StepResult)
    requires HasAllBands(d)
    requires DrawsFor(d, n, draws)
    ensures HasAllBands(s.drainer) && s.drainer.maxQueueLength == d.maxQueueLength
    ensures s.outcome.release == n.release
    ensures s.outcome.ReleasedNow? ==> s.drainer == d
    ensures s.outcome.Granted? ==>
              && s.drainer.queueLength == d.queueLength - 1
              && Backlog(s.drainer) + 1 == Backlog(d)
              && OtherBandsUnchanged(d, s.drainer, n.priority)
    ensures n.Reserved? ==>
              && (s.outcome.Granted? <==> Waiting(d.queueByPriorities[n.priority], n.bktName))
              && (s.outcome.Granted? ==>
                    PoppedHead(d.queueByPriorities[n.priority], n.bktName, s.outcome.waiter,
                               s.drainer.queueByPriorities[n.priority]))
    ensures n.Shared? ==>
              && (s.outcome.Granted? <==>
                    exists k :: k in d.queueByPriorities[n.priority].weights && Waiting(d.queueByPriorities[n.priority], k))
              && (s.outcome.Granted? ==>
                    exists k :: k in d.queueByPriorities[n.priority].weights &&
                      PoppedHead(d.queueByPriorities[n.priority], k, s.outcome.waiter,
                                 s.drainer.queueByPriorities[n.priority]))
  {
    var q := d.queueByPriorities[n.priority];
    match n
    case Reserved(band, bktName, release) =>
      (match DequeueDirectly(q, bktName)
       case Popped(_, w, rest) =>
         SumSizesUpdate(d.queueByPriorities, band, rest);
         StepResult(Grant(d, band, rest), Granted(w, release))
       case Empty => StepResult(d, ReleasedNow(release)))
    case Shared(band, release) =>
      var p := Dequeue(q, draws[0]);
      assert p.Popped? ==> Backlog(Grant(d, band, p.rest)) + 1 == Backlog(d) by {
        if p.Popped? {
          SumSizesUpdate(d.queueByPriorities, band, p.rest);
        }
      }
      SharedLoop(d, band, Top, draws, release)
  }

  /**
   * Admission keeps the invariant. The admitted waiter must not be queued
   * already: each admission creates a new delivery channel.
   */
  lemma EnqueuePreservesConsistent(d: QueueDrainer, bkt: Bucket, w: WaiterId)
    requires Consistent(d) && !Queued(d, w)
    ensures Enqueue(d, bkt, w).Some? ==> Consistent(Enqueue(d, bkt, w).value)
    ensures Enqueue(d, bkt, w).Some? ==>
              forall v :: Queued(Enqueue(d, bkt, w).value, v) <==> Queued(d, v) || v == w
  {
    var r := Enqueue(d, bkt, w);
    if r.Some? {
      var d2 := r.value;
      var band := bkt.priority;
      AppendKeepsDistinct(d.queueByPriorities[band], bkt.name, w, d2.queueByPriorities[band]);
      forall b: Band, v
        ensures Holds(d2.queueByPriorities[b], v) <==> Holds(d.queueByPriorities[b], v) || (b == band && v == w)
      {
      }
      assert Holds(d2.queueByPriorities[band], w);
    }
  }

  /** The band and FIFO a granted waiter was popped from. */
  lemma GrantedFrom(d: QueueDrainer, n: Notification, draws: seq<Draw>) returns (k: string)
    requires HasAllBands(d) && DrawsFor(d, n, draws)
    requires Step(d, n, draws).outcome.Granted?
    ensures PoppedHead(d.queueByPriorities[n.priority], k, Step(d, n, draws).outcome.waiter,
                       Step(d, n, draws).drainer.queueByPriorities[n.priority])
  {
    var s := Step(d, n, draws);
    if n.Reserved? {
      k := n.bktName;
    } else {
      k :| k in d.queueByPriorities[n.priority].weights &&
           PoppedHead(d.queueByPriorities[n.priority], k, s.outcome.waiter, s.drainer.queueByPriorities[n.priority]);
    }
  }

  /**
   * Handling a notification keeps the invariant; in particular the counter
   * never goes negative. A granted waiter was queued before and is queued no
   * longer, and no waiter becomes queued.
   */
  lemma StepPreservesConsistent(d: QueueDrainer, n: Notification, draws: seq<Draw>)
    requires Consistent(d) && DrawsFor(d, n, draws)
    ensures Consistent(Step(d, n, draws).drainer)
    ensures Step(d, n, draws).drainer.queueLength >= 0
    ensures forall v :: Queued(Step(d, n, draws).drainer, v) ==> Queued(d, v)
    ensures var s := Step(d, n, draws);
            s.outcome.Granted? ==> Queued(d, s.outcome.waiter) && !Queued(s.drainer, s.outcome.waiter)
  {
    var s := Step(d, n, draws);
    if s.outcome.Granted? {
      var band := n.priority;
      var w := s.outcome.waiter;
      var k := GrantedFrom(d, n, draws);
      PopKeepsDistinct(d.queueByPriorities[band], k, w, s.drainer.queueByPriorities[band]);
      assert Holds(d.queueByPriorities[band], w);
      forall b: Band, v | Holds(s.drainer.queueByPriorities[b], v)
        ensures Holds(d.queueByPriorities[b], v)
      {
      }
      forall b: Band
        ensures !Holds(s.drainer.queueByPriorities[b], w)
      {
        if b != band {
          assert s.drainer.queueByPriorities[b] == d.queueByPriorities[b];
        }
      }
    }
  }

  /**
   * No waiter is granted twice: after a grant, the next notification cannot
   * grant the same waiter again.
   */
  lemma GrantedAtMostOnce(d: QueueDrainer, n1: Notification, draws1: seq<Draw>, n2: Notification, draws2: seq<Draw>)
    requires Consistent(d) && DrawsFor(d, n1, draws1)
    requires DrawsFor(Step(d, n1, draws1).drainer, n2, draws2)
    ensures var s1 := Step(d, n1, draws1);
            var s2 := Step(s1.drainer, n2, draws2);
            s1.outcome.Granted? && s2.outcome.Granted? ==> s1.outcome.waiter != s2.outcome.waiter
  {
    var s1 := Step(d, n1, draws1);
    StepPreservesConsistent(d, n1, draws1);
    StepPreservesConsistent(s1.drainer, n2, draws2);
  }

  /** One event of the drainer's life: an admission (`Enqueue`) or the handling of one notification. */
  datatype Action = Admit(bkt: Bucket, w: WaiterId) | Handle(n: Notification, draws: seq<Draw>)

  /** The drainer after a history, and every waiter granted so far, in grant order. */
  datatype Trace = Trace(drainer: QueueDrainer, granted: seq<WaiterId>)

  /**
   * Runs a history from `d`, appending each granted waiter to `granted`. A
   * rejected admission changes nothing. `None` when a notification comes with
   * draws that are not valid for it.
   */
  ghost function Run(d: QueueDrainer, acts: seq<Action>, granted: seq<WaiterId>): (r: Option<Trace>)
    requires HasAllBands(d)
    ensures r.Some? ==> HasAllBands(r.value.drainer)
    ensures r.Some? ==> granted <= r.value.granted
    decreases |acts|
  {
    if |acts| == 0 then Some(Trace(d, granted))
    else
      match acts[0]
      case Admit(bkt, w) =>
        (match Enqueue(d, bkt, w)
         case None => Run(d, acts[1..], granted)
         case Some(d2) => Run(d2, acts[1..], granted))
      case Handle(n, draws) =>
        if !DrawsFor(d, n, draws) then None
        else
          var s := Step(d, n, draws);
          Run(s.drainer, acts[1..], Record(granted, s.outcome))
  }

  /** The granted waiters after an outcome: a grant appends its waiter. */
  function Record(granted: seq<WaiterId>, o: Outcome): (g: seq<WaiterId>)
    ensures granted <= g
    ensures o.Granted? ==> g == granted + [o.waiter]
    ensures o.ReleasedNow? ==> g == granted
  {
    if o.Granted? then granted + [o.waiter] else granted
  }

  /** No waiter occurs twice in `ws`. */
  ghost predicate NoRepeats(ws: seq<WaiterId>)
  {
    forall i, j :: 0 <= i < j < |ws| ==> ws[i] != ws[j]
  }

  /**
   * Each admission of the history uses a new waiter: one neither queued in
   * `d`, nor already granted, nor admitted elsewhere in the history, as every
   * admission makes a new channel.
   */
  ghost predicate FreshAdmissions(d: QueueDrainer, acts: seq<Action>, granted: seq<WaiterId>)
    requires HasAllBands(d)
  {
    && (forall i :: 0 <= i < |acts| && acts[i].Admit? ==> !Queued(d, acts[i].w) && acts[i].w !in granted)
    && (forall i, j :: 0 <= i < j < |acts| && acts[i].Admit? && acts[j].Admit? ==> acts[i].w != acts[j].w)
  }

  /** The tail of a fresh history is fresh, and its first admission's waiter is used nowhere else. */
  lemma FreshTail(d: QueueDrainer, acts: seq<Action>, granted: seq<WaiterId>)
    requires HasAllBands(d) && |acts| > 0 && FreshAdmissions(d, acts, granted)
    ensures FreshAdmissions(d, acts[1..], granted)
    ensures acts[0].Admit? ==>
              && !Queued(d, acts[0].w) && acts[0].w !in granted
              && forall i :: 1 <= i < |acts| && acts[i].Admit? ==> acts[i].w != acts[0].w
  {
    assert forall i :: 0 <= i < |acts| - 1 ==> acts[1..][i] == acts[i + 1];
  }

  /** An admission of a new waiter keeps the invariants the history proof carries. */
  lemma AdmitKeepsFresh(d: QueueDrainer, bkt: Bucket, w: WaiterId, rest: seq<Action>, granted: seq<WaiterId>)
    requires Consistent(d) && !Queued(d, w) && w !in granted
    requires forall v :: v in granted ==> !Queued(d, v)
    requires FreshAdmissions(d, rest, granted)
    requires forall i :: 0 <= i < |rest| && rest[i].Admit? ==> rest[i].w != w
    ensures Enqueue(d, bkt, w).Some? ==>
              var d2 := Enqueue(d, bkt, w).value;
              && Consistent(d2)
              && (forall v :: v in granted ==> !Queued(d2, v))
              && FreshAdmissions(d2, rest, granted)
  {
    EnqueuePreservesConsistent(d, bkt, w);
  }

  /** Handling a notification keeps the invariants the history proof carries, the granted waiter included. */
  lemma HandleKeepsFresh(d: QueueDrainer, n: Notification, draws: seq<Draw>, rest: seq<Action>, granted: seq<WaiterId>)
    requires Consistent(d) && DrawsFor(d, n, draws)
    requires NoRepeats(granted) && forall v :: v in granted ==> !Queued(d, v)
    requires FreshAdmissions(d, rest, granted)
    ensures var s := Step(d, n, draws);
            var g2 := Record(granted, s.outcome);
            && Consistent(s.drainer)
            && NoRepeats(g2)
            && (forall v :: v in g2 ==> !Queued(s.drainer, v))
            && FreshAdmissions(s.drainer, rest, g2)
  {
    StepPreservesConsistent(d, n, draws);
    var s := Step(d, n, draws);
    if s.outcome.Granted? {
      GrantKeepsFresh(d, s.drainer, s.outcome.waiter, rest, granted);
    }
  }

  /** Recording a waiter that was queued and is no longer keeps the history invariants. */
  lemma GrantKeepsFresh(d: QueueDrainer, d2: QueueDrainer, w: WaiterId, rest: seq<Action>, granted: seq<WaiterId>)
    requires HasAllBands(d) && HasAllBands(d2)
    requires Queued(d, w) && !Queued(d2, w)
    requires forall v :: Queued(d2, v) ==> Queued(d, v)
    requires NoRepeats(granted) && forall v :: v in granted ==> !Queued(d, v)
    requires FreshAdmissions(d, rest, granted)
    ensures NoRepeats(granted + [w])
    ensures forall v :: v in granted + [w] ==> !Queued(d2, v)
    ensures FreshAdmissions(d2, rest, granted + [w])
  {
    var g2 := granted + [w];
    assert w !in granted;
    assert forall v :: v in g2 ==> v in granted || v == w;
    assert forall i :: 0 <= i < |rest| && rest[i].Admit? ==> rest[i].w != w;
  }

  /**
   * Over any history whose admissions use new waiters, no waiter is granted
   * twice: the granted waiters are pairwise distinct.
   */
  lemma {:induction false} RunGrantsEachWaiterOnce(d: QueueDrainer, acts: seq<Action>, granted: seq<WaiterId>)
    requires Consistent(d)
    requires NoRepeats(granted) && forall v :: v in granted ==> !Queued(d, v)
    requires FreshAdmissions(d, acts, granted)
    requires Run(d, acts, granted).Some?
    ensures NoRepeats(Run(d, acts, granted).value.granted)
    decreases |acts|
  {
    if |acts| > 0 {
      var rest := acts[1..];
      FreshTail(d, acts, granted);
      match acts[0]
      case Admit(bkt, w) =>
        AdmitKeepsFresh(d, bkt, w, rest, granted);
        var r := Enqueue(d, bkt, w);
        if r.Some? {
          RunGrantsEachWaiterOnce(r.value, rest, granted);
        } else {
          RunGrantsEachWaiterOnce(d, rest, granted);
        }
      case Handle(n, draws) =>
        HandleKeepsFresh(d, n, draws, rest, granted);
        var s := Step(d, n, draws);
        RunGrantsEachWaiterOnce(s.drainer, rest, Record(granted, s.outcome));
    }
  }

  /**
   * From a new drainer, over any history whose admissions each use a new
   * waiter, no delivery channel receives two releases.
   */
  lemma HistoryGrantsEachWaiterOnce(bkts: seq<Bucket>, acts: seq<Action>)
    requires forall i, j :: 0 <= i < j < |acts| && acts[i].Admit? && acts[j].Admit? ==> acts[i].w != acts[j].w
    requires Run(NewQueueDrainer(bkts), acts, []).Some?
    ensures NoRepeats(Run(NewQueueDrainer(bkts), acts, []).value.granted)
  {
    NewQueueDrainerConsistent(bkts);
    RunGrantsEachWaiterOnce(NewQueueDrainer(bkts), acts, []);
  }

  /**
   * The ceiling as written admits one waiter more than the total shared
   * quota: at `queueLength == maxQueueLength` one more is admitted, and only
   * the next is rejected.
   */
  lemma CeilingAdmitsOneOverMax(d: QueueDrainer, b1: Bucket, w1: WaiterId, b2: Bucket, w2: WaiterId)
    requires Consistent(d) && d.queueLength == d.maxQueueLength
    ensures Enqueue(d, b1, w1).Some?
    ensures Enqueue(Enqueue(d, b1, w1).value, b2, w2).None?
  {
  }

  /**
   * A shared notification never consults another band: with no waiter in its
   * own band it releases at once, whatever waits in more urgent bands.
   */
  lemma SharedNeverBorrows(d: QueueDrainer, band: Band, release: Token, draws: seq<Draw>)
    requires HasAllBands(d) && DrawsFor(d, Shared(band, release), draws)
    requires forall k :: k in d.queueByPriorities[band].weights ==> !Waiting(d.queueByPriorities[band], k)
    ensures Step(d, Shared(band, release), draws) == StepResult(d, ReleasedNow(release))
  {
  }
}

=== FILE: quota_collector.dfy ===
/**
 * The quota collector: per-bucket shared and reserved counters under one
 * lock. Its guarantee is the reserved-quota guarantee on the reserved map;
 * one pass of its distribution loop drains a bucket's shared counter into
 * that many release tokens. Channel sends are the emitted token list.
 */
module QuotaCollectors {
  import opened Types
  import RQ = ReservedQuota

  datatype QuotaCollector = QuotaCollector(
    remainingSharedQuotasByBucket: map<string, int>,
    remainingReservedQuotasByBucket: map<string, int>)

  datatype CollectorReservation = Denied | Guaranteed(release: Token, collector: QuotaCollector)

  /** Same check-then-decrement as the reserved-quota manager, on the reserved map only. */
  function Guarantee(c: QuotaCollector, bkt: Bucket): (g: CollectorReservation)
    ensures g.Guaranteed? <==> RQ.Remaining(c.remainingReservedQuotasByBucket, bkt.name) > 0
    ensures g.Guaranteed? ==>
              && g.release == ReservedUnit(bkt.name)
              && RQ.ChangedOnly(c.remainingReservedQuotasByBucket, g.collector.remainingReservedQuotasByBucket, bkt.name, -1)
              && g.collector.remainingSharedQuotasByBucket == c.remainingSharedQuotasByBucket
  {
    match RQ.Guarantee(c.remainingReservedQuotasByBucket, bkt)
    case Denied => Denied
    case Guaranteed(t, m) => Guaranteed(t, c.(remainingReservedQuotasByBucket := m))
  }

  /** Invokes a release token of the collector: a reserved or a shared bucket counter goes up by one. */
  function Release(c: QuotaCollector, t: Token): (c2: QuotaCollector)
    requires t.ReservedUnit? || t.SharedBucketUnit?
    ensures t.ReservedUnit? ==>
              && RQ.ChangedOnly(c.remainingReservedQuotasByBucket, c2.remainingReservedQuotasByBucket, t.bucket, 1)
              && c2.remainingSharedQuotasByBucket == c.remainingSharedQuotasByBucket
    ensures t.SharedBucketUnit? ==>
              && RQ.ChangedOnly(c.remainingSharedQuotasByBucket, c2.remainingSharedQuotasByBucket, t.bucket, 1)
              && c2.remainingReservedQuotasByBucket == c.remainingReservedQuotasByBucket
  {
    if t.ReservedUnit? then c.(remainingReservedQuotasByBucket := RQ.Release(c.remainingReservedQuotasByBucket, t))
    else c.(remainingSharedQuotasByBucket := RQ.Increment(c.remainingSharedQuotasByBucket, t.bucket))
  }

  /** A reserved guarantee followed by its release gives back the original collector. */
  lemma GuaranteeThenReleaseRestores(c: QuotaCollector, bkt: Bucket)
    requires Guarantee(c, bkt).Guaranteed?
    ensures Release(Guarantee(c, bkt).collector, Guarantee(c, bkt).release) == c
  {
    RQ.GuaranteeThenReleaseRestores(c.remainingReservedQuotasByBucket, bkt);
  }

  /**
   * One pass of the distribution loop over bucket `name`: snapshot its shared
   * counter `n`, then `n` times decrement it and emit a release token for it.
   */
  method DistributePass(c: QuotaCollector, name: string) returns (c2: QuotaCollector, releases: seq<Token>)
    ensures var n := RQ.Remaining(c.remainingSharedQuotasByBucket, name);
            |releases| == (if n > 0 then n else 0)
    ensures forall i :: 0 <= i < |releases| ==> releases[i] == SharedBucketUnit(name)
    ensures RQ.ChangedOnly(c.remainingSharedQuotasByBucket, c2.remainingSharedQuotasByBucket, name, -|releases|)
    ensures c2.remainingSharedQuotasByBucket.Keys == c.remainingSharedQuotasByBucket.Keys
    ensures c2.remainingReservedQuotasByBucket == c.remainingReservedQuotasByBucket
  {
    var n := RQ.Remaining(c.remainingSharedQuotasByBucket, name);
    c2 := c;
    releases := [];
    var i := 0;
    while i < n
      invariant 0 <= i && (if n > 0 then i <= n else i == 0)
      invariant |releases| == i
      invariant forall m :: 0 <= m < |releases| ==> releases[m] == SharedBucketUnit(name)
      invariant RQ.ChangedOnly(c.remainingSharedQuotasByBucket, c2.remainingSharedQuotasByBucket, name, -i)
      invariant c2.remainingSharedQuotasByBucket.Keys == c.remainingSharedQuotasByBucket.Keys
      invariant c2.remainingReservedQuotasByBucket == c.remainingReservedQuotasByBucket
    {
      var m := c2.remainingSharedQuotasByBucket;
      c2 := c2.(remainingSharedQuotasByBucket := m[name := m[name] - 1]);
      releases := releases + [SharedBucketUnit(name)];
      i := i + 1;
    }
  }

  /** Invokes the tokens in order. */
  function ReleaseAll(c: QuotaCollector, ts: seq<Token>): QuotaCollector
    requires forall i :: 0 <= i < |ts| ==> ts[i].ReservedUnit? || ts[i].SharedBucketUnit?
    decreases |ts|
  {
    if |ts| == 0 then c else ReleaseAll(Release(c, ts[0]), ts[1..])
  }

  /**
   * Invoking `k` release tokens of bucket `name` raises its shared counter by
   * `k` and changes nothing else; so invoking every token a pass emitted
   * undoes the pass.
   */
  lemma {:induction false} ReleaseAllRestores(c: QuotaCollector, name: string, ts: seq<Token>)
    requires forall i :: 0 <= i < |ts| ==> ts[i] == SharedBucketUnit(name)
    ensures RQ.ChangedOnly(c.remainingSharedQuotasByBucket, ReleaseAll(c, ts).remainingSharedQuotasByBucket, name, |ts|)
    ensures ReleaseAll(c, ts).remainingReservedQuotasByBucket == c.remainingReservedQuotasByBucket
    decreases |ts|
  {
    if |ts| > 0 {
      ReleaseAllRestores(Release(c, ts[0]), name, ts[1..]);
    }
  }

  /** The pass and the invocation of all its tokens leave every shared counter where it was. */
  lemma PassThenReleaseRestoresCounts(c: QuotaCollector, c2: QuotaCollector, name: string, releases: seq<Token>)
    requires forall i :: 0 <= i < |releases| ==> releases[i] == SharedBucketUnit(name)
    requires RQ.ChangedOnly(c.remainingSharedQuotasByBucket, c2.remainingSharedQuotasByBucket, name, -|releases|)
    ensures forall k :: RQ.Remaining(ReleaseAll(c2, releases).remainingSharedQuotasByBucket, k)
                          == RQ.Remaining(c.remainingSharedQuotasByBucket, k)
  {
    ReleaseAllRestores(c2, name, releases);
  }
}

=== FILE: quota_producer.dfy ===
/**
 * A band's shared-quota producer: each step offers one unit, tagged with the
 * producer's band, when its counter is positive; the unit's release token
 * puts it back. The idle sleep and the goroutine around the loop are left out.
 */
module QuotaProducers {
  import opened Types

  datatype QuotaProducer = QuotaProducer(priority: Band, remainingSharedQuota: int)

  /** One loop iteration: the new producer and the notification it emitted, if any. */
  datatype Tick = Tick(producer: QuotaProducer, emitted: Option<Notification>)

  /** One iteration of the producer's loop. */
  function Step(p: QuotaProducer): (t: Tick)
    ensures t.emitted.Some? <==> p.remainingSharedQuota > 0
    ensures t.emitted.Some? ==>
              && t.emitted.value == Shared(p.priority, SharedBandUnit(p.priority))
              && t.producer == p.(remainingSharedQuota := p.remainingSharedQuota - 1)
    ensures t.emitted.None? ==> t.producer == p
  {
    if p.remainingSharedQuota > 0 then
      Tick(p.(remainingSharedQuota := p.remainingSharedQuota - 1), Some(Shared(p.priority, SharedBandUnit(p.priority))))
    else Tick(p, None)
  }

  /** Invoking a released unit: the counter goes up by one. */
  function Release(p: QuotaProducer): (p2: QuotaProducer)
    ensures p2.priority == p.priority
    ensures p2.remainingSharedQuota == p.remainingSharedQuota + 1
  {
    p.(remainingSharedQuota := p.remainingSharedQuota + 1)
  }

  /** What can happen to a producer: a loop iteration, or the invocation of one of its release tokens. */
  datatype Event = Produce | ReleaseOne

  /** A producer together with the number of emitted units whose release has not been invoked yet. */
  datatype Ledger = Ledger(producer: QuotaProducer, outstanding: nat)

  /** Applies one event; releasing with nothing outstanding is impossible (no token exists) and gives `None`. */
  function Apply(l: Ledger, e: Event): Option<Ledger>
  {
    match e
    case Produce =>
      var t := Step(l.producer);
      Some(Ledger(t.producer, if t.emitted.Some? then l.outstanding + 1 else l.outstanding))
    case ReleaseOne =>
      if l.outstanding == 0 then None else Some(Ledger(Release(l.producer), l.outstanding - 1))
  }

  function Replay(l: Ledger, es: seq<Event>): Option<Ledger>
    decreases |es|
  {
    if |es| == 0 then Some(l)
    else
      match Apply(l, es[0])
      case None => None
      case Some(l2) => Replay(l2, es[1..])
  }

  /**
   * Conservation: along any possible history the counter plus the outstanding
   * units stays constant, the counter stays non-negative, and the band never changes.
   */
  lemma {:induction false} ReplayConserves(l: Ledger, es: seq<Event>)
    requires l.producer.remainingSharedQuota >= 0
    requires Replay(l, es).Some?
    ensures Replay(l, es).value.producer.remainingSharedQuota + Replay(l, es).value.outstanding
              == l.producer.remainingSharedQuota + l.outstanding
    ensures Replay(l, es).value.producer.remainingSharedQuota >= 0
    ensures Replay(l, es).value.producer.priority == l.producer.priority
    decreases |es|
  {
    if |es| > 0 {
      var l2 := Apply(l, es[0]).value;
      ReplayConserves(l2, es[1..]);
    }
  }

  /** From a fresh producer with quota `q`, remaining plus outstanding is always `q`. */
  lemma FreshProducerConserves(band: Band, q: nat, es: seq<Event>)
    requires Replay(Ledger(QuotaProducer(band, q), 0), es).Some?
    ensures Replay(Ledger(QuotaProducer(band, q), 0), es).value.producer.remainingSharedQuota
              + Replay(Ledger(QuotaProducer(band, q), 0), es).value.outstanding == q
  {
    ReplayConserves(Ledger(QuotaProducer(band, q), 0), es);
  }
}

=== FILE: reserved_quota.dfy ===
/**
 * Reserved quota: a per-bucket counter map with a check-then-decrement
 * guarantee whose release token increments the same counter again.
 * The manager's lock makes each operation atomic, so each is one pure step.
 */
module ReservedQuota {
  import opened Types

  /** A counter's value; a missing key reads as 0, like a Go map of ints. */
  function Remaining(m: map<string, int>, name: string): int
  {
    if name in m then m[name] else 0
  }

  /** Outcome of a guarantee: denied (no release, nothing changed), or the release and the new counters. */
  datatype Reservation = Denied | Guaranteed(release: Token, counters: map<string, int>)

  /** Counter `name` of `m2` is counter `name` of `m` plus `delta`, and every other counter is unchanged. */
  ghost predicate ChangedOnly(m: map<string, int>, m2: map<string, int>, name: string, delta: int)
  {
    && Remaining(m2, name) == Remaining(m, name) + delta
    && forall k :: k != name ==> Remaining(m2, k) == Remaining(m, k)
  }

  /** No counter is negative. */
  ghost predicate NonNegative(m: map<string, int>)
  {
    forall k :: k in m ==> m[k] >= 0
  }

  /** Takes one unit of `bkt`'s reserved quota when one is left. */
  function Guarantee(m: map<string, int>, bkt: Bucket): (g: Reservation)
    ensures g.Guaranteed? <==> Remaining(m, bkt.name) > 0
    ensures g.Guaranteed? ==> g.release == ReservedUnit(bkt.name) && ChangedOnly(m, g.counters, bkt.name, -1)
    ensures g.Guaranteed? ==> g.counters.Keys == m.Keys
  {
    if Remaining(m, bkt.name) > 0 then
      Guaranteed(ReservedUnit(bkt.name), m[bkt.name := m[bkt.name] - 1])
    else Denied
  }

  /** Adds one to counter `name`, creating it at 1 when absent, like Go's `++` on a map entry. */
  function Increment(m: map<string, int>, name: string): (m2: map<string, int>)
    ensures ChangedOnly(m, m2, name, 1)
    ensures m2.Keys == m.Keys + {name}
  {
    m[name := Remaining(m, name) + 1]
  }

  /** Invokes a reserved release token: its bucket's counter goes up by one. */
  function Release(m: map<string, int>, t: Token): (m2: map<string, int>)
    requires t.ReservedUnit?
    ensures ChangedOnly(m, m2, t.bucket, 1)
  {
    Increment(m, t.bucket)
  }

  /** Guarantee then release gives back the original counters exactly. */
  lemma GuaranteeThenReleaseRestores(m: map<string, int>, bkt: Bucket)
    requires Guarantee(m, bkt).Guaranteed?
    ensures Release(Guarantee(m, bkt).counters, Guarantee(m, bkt).release) == m
  {
    var m2 := Guarantee(m, bkt).counters;
    assert bkt.name in m;
    assert Release(m2, ReservedUnit(bkt.name)).Keys == m.Keys;
  }

  /** Counters never go negative: the decrement happens only after the positive check. */
  lemma GuaranteeKeepsNonNegative(m: map<string, int>, bkt: Bucket)
    requires NonNegative(m)
    ensures Guarantee(m, bkt).Guaranteed? ==> NonNegative(Guarantee(m, bkt).counters)
  {
  }
}

=== FILE: rule.dfy ===
/**
 * Request classification: a binding matches when any of its rules lists the
 * subject's value for that rule's field; bindings are tried band by band,
 * Top first, in list order within a band, and the first match picks the
 * bucket. Unmatched requests go to the extra bucket.
 */
module Rules {
  import opened Types

  /** The subject attribute a rule field names; any other field names nothing. */
  function Attribute(sub: Subject, field: string): Option<string>
  {
    if field == "user.name" then Some(sub.username)
    else if field == "namespace" then Some(sub.namespace)
    else if field == "verb" then Some(sub.verb)
    else None
  }

  /** Rule `rules[i]` lists, as its value `j`, the subject's value of its field. */
  ghost predicate RuleHit(sub: Subject, rules: seq<Rule>, i: int, j: int)
    requires 0 <= i < |rules|
  {
    0 <= j < |rules[i].values| && Attribute(sub, rules[i].field) == Some(rules[i].values[j])
  }

  /** The scan over one rule's values, from position `j`. */
  function AnyValue(values: seq<string>, x: string, j: nat): (b: bool)
    requires j <= |values|
    ensures b <==> exists m :: j <= m < |values| && values[m] == x
    decreases |values| - j
  {
    if j == |values| then false
    else if values[j] == x then true
    else AnyValue(values, x, j + 1)
  }

  /** The scan over a binding's rules, from position `i`. */
  function AnyRule(sub: Subject, rules: seq<Rule>, i: nat): (b: bool)
    requires i <= |rules|
    ensures b <==> exists m, j :: i <= m < |rules| && RuleHit(sub, rules, m, j)
    decreases |rules| - i
  {
    if i == |rules| then false
    else
      var hit := match Attribute(sub, rules[i].field)
                 case Some(x) => AnyValue(rules[i].values, x, 0)
                 case None => false;
      if hit then
        assert exists j :: RuleHit(sub, rules, i, j) by {
          var x := Attribute(sub, rules[i].field).value;
          var m :| 0 <= m < |rules[i].values| && rules[i].values[m] == x;
          assert RuleHit(sub, rules, i, m);
        }
        true
      else AnyRule(sub, rules, i + 1)
  }

  /** OR over rules and over their values; rules with an unknown field never match. */
  function Match(sub: Subject, binding: Binding): (b: bool)
    ensures b <==> exists i, j :: 0 <= i < |binding.rules| && RuleHit(sub, binding.rules, i, j)
  {
    AnyRule(sub, binding.rules, 0)
  }

  /** A binding without rules matches nothing. */
  lemma EmptyBindingNeverMatches(sub: Subject, ref: string)
    ensures !Match(sub, Binding([], ref))
  {
  }

  /** Removing a rule whose field is not one of the three known fields does not change the verdict. */
  lemma UnknownFieldIgnored(sub: Subject, binding: Binding, k: nat)
    requires k < |binding.rules| && Attribute(sub, binding.rules[k].field).None?
    ensures Match(sub, binding) == Match(sub, Binding(binding.rules[..k] + binding.rules[k + 1..], binding.bucketRef))
  {
    var rules := binding.rules;
    var rest := rules[..k] + rules[k + 1..];
    if Match(sub, binding) {
      var i, j :| 0 <= i < |rules| && RuleHit(sub, rules, i, j);
      assert i != k;
      var i' := if i < k then i else i - 1;
      assert rest[i'] == rules[i];
      assert RuleHit(sub, rest, i', j);
    }
    if Match(sub, Binding(rest, binding.bucketRef)) {
      var i', j :| 0 <= i' < |rest| && RuleHit(sub, rest, i', j);
      var i := if i' < k then i' else i' + 1;
      assert rest[i'] == rules[i];
      assert RuleHit(sub, rules, i, j);
    }
  }

  /** Where a binding sits: its band and its position in that band's list. */
  datatype Position = Position(band: Band, index: nat)

  /** The bindings of band `b`; a band without bindings has none. */
  function BandBindings(bbp: map<Band, seq<Binding>>, b: Band): seq<Binding>
  {
    if b in bbp then bbp[b] else []
  }

  /** A binding exists at `p` and matches the subject. */
  ghost predicate MatchesAt(sub: Subject, bbp: map<Band, seq<Binding>>, p: Position)
  {
    p.index < |BandBindings(bbp, p.band)| && Match(sub, BandBindings(bbp, p.band)[p.index])
  }

  /** `p` comes strictly before `p2` in scan order: by band, then by position. */
  predicate Before(p: Position, p2: Position)
  {
    p.band < p2.band || (p.band == p2.band && p.index < p2.index)
  }

  /** The scan within one band's list, from position `i`. */
  function ScanBand(sub: Subject, bindings: seq<Binding>, i: nat): (r: Option<nat>)
    requires i <= |bindings|
    ensures r.Some? ==> i <= r.value < |bindings| && Match(sub, bindings[r.value])
    ensures r.Some? ==> forall m :: i <= m < r.value ==> !Match(sub, bindings[m])
    ensures r.None? ==> forall m :: i <= m < |bindings| ==> !Match(sub, bindings[m])
    decreases |bindings| - i
  {
    if i == |bindings| then None
    else if Match(sub, bindings[i]) then Some(i)
    else ScanBand(sub, bindings, i + 1)
  }

  /** The scan over bands `from` .. Lowest. */
  function ScanBands(sub: Subject, bbp: map<Band, seq<Binding>>, from: nat): (r: Option<Position>)
    requires from <= NumBands
    ensures r.Some? ==> from <= r.value.band && MatchesAt(sub, bbp, r.value)
    ensures r.Some? ==> forall p: Position :: from <= p.band && Before(p, r.value) ==> !MatchesAt(sub, bbp, p)
    ensures r.None? ==> forall p: Position :: from <= p.band ==> !MatchesAt(sub, bbp, p)
    decreases NumBands - from
  {
    if from == NumBands then None
    else
      match ScanBand(sub, BandBindings(bbp, from), 0)
      case Some(i) => Some(Position(from, i))
      case None => ScanBands(sub, bbp, from + 1)
  }

  /** The first matching binding in scan order, if any. */
  function FirstMatch(sub: Subject, bbp: map<Band, seq<Binding>>): (r: Option<Position>)
    ensures r.Some? ==> MatchesAt(sub, bbp, r.value)
    ensures r.Some? ==> forall p: Position :: Before(p, r.value) ==> !MatchesAt(sub, bbp, p)
    ensures r.None? <==> forall p: Position :: !MatchesAt(sub, bbp, p)
  {
    ScanBands(sub, bbp, 0)
  }

  /** `p` holds the first matching binding in scan order. */
  ghost predicate FirstMatchAt(sub: Subject, bbp: map<Band, seq<Binding>>, p: Position)
  {
    MatchesAt(sub, bbp, p) && forall p2: Position :: Before(p2, p) ==> !MatchesAt(sub, bbp, p2)
  }

  /** Go's map lookup of a bucket reference: a missing name reads as nil (`None`). */
  function Resolve(bktByName: map<string, Bucket>, ref: string): Option<Bucket>
  {
    if ref in bktByName then Some(bktByName[ref]) else None
  }

  /** Every binding names a bucket of `bktByName`. */
  ghost predicate AllTargetsKnown(bktByName: map<string, Bucket>, bbp: map<Band, seq<Binding>>)
  {
    forall b: Band, i :: 0 <= i < |BandBindings(bbp, b)| ==> BandBindings(bbp, b)[i].bucketRef in bktByName
  }

  lemma FirstMatchUnique(sub: Subject, bbp: map<Band, seq<Binding>>, p: Position)
    requires FirstMatchAt(sub, bbp, p)
    ensures FirstMatch(sub, bbp) == Some(p)
  {
    var q := FirstMatch(sub, bbp).value;
    assert !Before(p, q) && !Before(q, p);
  }

  /**
   * The bucket a request is classified into: the target of the first matching
   * binding, or the extra bucket when nothing matches. `None` is Go's nil: the
   * first matching binding names a bucket that `bktByName` lacks.
   */
  function FindMatchedBucket(sub: Subject, bktByName: map<string, Bucket>, bbp: map<Band, seq<Binding>>): (r: Option<Bucket>)
    ensures (forall p: Position :: !MatchesAt(sub, bbp, p)) ==> r == Some(ExtraBucket)
    ensures forall p: Position :: FirstMatchAt(sub, bbp, p) ==>
              r == Resolve(bktByName, BandBindings(bbp, p.band)[p.index].bucketRef)
    ensures AllTargetsKnown(bktByName, bbp) ==> r.Some?
  {
    var r := match FirstMatch(sub, bbp)
             case None => Some(ExtraBucket)
             case Some(p) => Resolve(bktByName, BandBindings(bbp, p.band)[p.index].bucketRef);
    assert forall p: Position :: FirstMatchAt(sub, bbp, p) ==>
             r == Resolve(bktByName, BandBindings(bbp, p.band)[p.index].bucketRef) by {
      forall p: Position | FirstMatchAt(sub, bbp, p)
        ensures r == Resolve(bktByName, BandBindings(bbp, p.band)[p.index].bucketRef)
      {
        FirstMatchUnique(sub, bbp, p);
      }
    }
    r
  }

  /**
   * A matching binding in a band wins over every binding of a later
   * (less urgent) band: the first match is never in a later band, nor later
   * in the same band.
   */
  lemma MoreUrgentBandWins(sub: Subject, bbp: map<Band, seq<Binding>>, p: Position)
    requires MatchesAt(sub, bbp, p)
    ensures FirstMatch(sub, bbp).Some?
    ensures !Before(p, FirstMatch(sub, bbp).value)
  {
  }
}

=== FILE: types.dfy ===
/**
 * Shared vocabulary of the admission filter: priority bands, buckets,
 * bindings, request subjects, release tokens and quota notifications.
 */
module Types {

  datatype Option<+T> = None | Some(value: T)

  /** Number of priority bands; bands are numbered 0 (most urgent) .. NumBands - 1. */
  const NumBands: nat := 6

  type Band = b: int | 0 <= b < NumBands

  const Top: Band := 0
  const High: Band := 1
  const Medium: Band := 2
  const Normal: Band := 3
  const Low: Band := 4
  /** The implicit band of unmatched traffic; it cannot be configured. */
  const Lowest: Band := 5

  /**
   * A named quota pool. Quotas and weight are non-negative by type.
   */
  datatype Bucket = Bucket(
    name: string,
    reservedQuota: nat,
    sharedQuota: nat,
    weight: nat,
    priority: Band)

  /** The synthetic default bucket: shared quota 10 in the Lowest band, every other field zero. */
  const ExtraBucket: Bucket := Bucket("__extra", 0, 10, 0, Lowest)

  /** One predicate of a binding: the request attribute `field` must equal one of `values`. */
  datatype Rule = Rule(field: string, values: seq<string>)

  /** A binding routes requests matched by any of its rules to the bucket named `bucketRef`. */
  datatype Binding = Binding(rules: seq<Rule>, bucketRef: string)

  /** The request attributes classification looks at. */
  datatype Subject = Subject(username: string, namespace: string, verb: string)

  /** An opaque identity for a waiting request's private delivery channel. */
  type WaiterId = nat

  /**
   * A release callback, reduced to the counter its invocation increments by one:
   * a bucket's reserved counter, a band producer's shared counter, or a
   * bucket's shared counter in the quota collector.
   */
  datatype Token =
    | ReservedUnit(bucket: string)
    | SharedBandUnit(band: Band)
    | SharedBucketUnit(bucket: string)

  /**
   * A unit of quota offered to the drainer: reserved quota names its bucket,
   * shared quota names only its band.
   */
  datatype Notification =
    | Reserved(priority: Band, bktName: string, release: Token)
    | Shared(priority: Band, release: Token)

  /** Names of the buckets of `bkts`. */
  function Names(bkts: seq<Bucket>): (s: set<string>)
    ensures forall i :: 0 <= i < |bkts| ==> bkts[i].name in s
    ensures forall n :: n in s ==> exists i :: 0 <= i < |bkts| && bkts[i].name == n
  {
    set i | 0 <= i < |bkts| :: bkts[i].name
  }

  /** True when no later bucket of `bkts` has the same name as `bkts[i]`, so a Go map keyed by name keeps it. */
  ghost predicate LastWithName(bkts: seq<Bucket>, i: int)
    requires 0 <= i < |bkts|
  {
    forall j :: i < j < |bkts| ==> bkts[j].name != bkts[i].name
  }

  lemma NamesSnoc(bkts: seq<Bucket>)
    requires |bkts| > 0
    ensures Names(bkts) == Names(bkts[..|bkts| - 1]) + {bkts[|bkts| - 1].name}
  {
    var init := bkts[..|bkts| - 1];
    forall n | n in Names(bkts)
      ensures n in Names(init) + {bkts[|bkts| - 1].name}
    {
      var i :| 0 <= i < |bkts| && bkts[i].name == n;
      if i < |init| {
        assert init[i] == bkts[i];
      }
    }
  }

  /**
   * Filling a map keyed by bucket name in list order: if every bucket that is
   * last with its name in the prefix is stored, then after storing the last
   * bucket every bucket that is last with its name in the whole list is stored.
   */
  lemma LastWins<V>(bkts: seq<Bucket>, f: Bucket -> V, m: map<string, V>, m2: map<string, V>)
    requires |bkts| > 0
    requires forall i :: 0 <= i < |bkts| - 1 && LastWithName(bkts[..|bkts| - 1], i) ==>
               bkts[i].name in m && m[bkts[i].name] == f(bkts[i])
    requires m2 == m[bkts[|bkts| - 1].name := f(bkts[|bkts| - 1])]
    ensures forall i :: 0 <= i < |bkts| && LastWithName(bkts, i) ==>
              bkts[i].name in m2 && m2[bkts[i].name] == f(bkts[i])
  {
    var init := bkts[..|bkts| - 1];
    forall i | 0 <= i < |bkts| && LastWithName(bkts, i)
      ensures bkts[i].name in m2 && m2[bkts[i].name] == f(bkts[i])
    {
      if i < |init| {
        assert init[i] == bkts[i];
        assert LastWithName(init, i);
      }
    }
  }
}

=== FILE: wrr_queue.dfy ===
/**
 * One priority band's wait lists: for every bucket name a weight and a FIFO
 * of waiters, with direct (by name) and weighted (by draw) dequeueing.
 *
 * Go's random iteration over the weight map and its `rand.Float64` draw are
 * explicit here: a `Draw` carries the iteration order (an enumeration of the
 * weight map's keys) and an integer draw `r` with 0 <= r <= total weight.
 */
module WrrQueues {
  import opened Types

  datatype WRRQueue = WRRQueue(weights: map<string, nat>, queues: map<string, seq<WaiterId>>)

  /** Result of a dequeue: nothing (and then nothing changed), or the popped waiter, its key and the rest. */
  datatype Pop = Empty | Popped(key: string, waiter: WaiterId, rest: WRRQueue)

  /** The iteration order over the weight map and the random draw of one weighted dequeue. */
  datatype Draw = Draw(order: seq<string>, r: nat)

  /** The FIFO of `key`; a key never enqueued reads as empty, like a missing Go map entry. */
  function Fifo(q: WRRQueue, key: string): seq<WaiterId>
  {
    if key in q.queues then q.queues[key] else []
  }

  predicate Waiting(q: WRRQueue, key: string)
  {
    |Fifo(q, key)| > 0
  }

  /** `order` visits every key of `keys` exactly once, as one `range` over a Go map does. */
  ghost predicate IsEnumeration(order: seq<string>, keys: set<string>)
  {
    && (forall i :: 0 <= i < |order| ==> order[i] in keys)
    && (forall k :: k in keys ==> k in order)
    && (forall i, j :: 0 <= i < j < |order| ==> order[i] != order[j])
  }

  /** `q2` is `q` with `w` appended to FIFO `key`, and nothing else changed. */
  ghost predicate AppendedTail(q: WRRQueue, key: string, w: WaiterId, q2: WRRQueue)
  {
    && q2.weights == q.weights
    && Fifo(q2, key) == Fifo(q, key) + [w]
    && forall k :: k != key ==> Fifo(q2, k) == Fifo(q, k)
  }

  /** `q2` is `q` with the head `w` of non-empty FIFO `key` removed, and nothing else changed. */
  ghost predicate PoppedHead(q: WRRQueue, key: string, w: WaiterId, q2: WRRQueue)
  {
    && q2.weights == q.weights
    && Waiting(q, key)
    && w == Fifo(q, key)[0]
    && Fifo(q2, key) == Fifo(q, key)[1..]
    && forall k :: k != key ==> Fifo(q2, k) == Fifo(q, k)
  }

  /** A fresh queue: one weight per bucket name (a later bucket of the same name overwrites), no waiters. */
  function NewWRRQueue(bkts: seq<Bucket>): (q: WRRQueue)
    ensures q.queues == map[]
    ensures q.weights.Keys == Names(bkts)
    ensures forall i :: 0 <= i < |bkts| && LastWithName(bkts, i) ==> q.weights[bkts[i].name] == bkts[i].weight
  {
    if |bkts| == 0 then WRRQueue(map[], map[])
    else
      var init := bkts[..|bkts| - 1];
      var last := bkts[|bkts| - 1];
      var q := NewWRRQueue(init);
      var q2 := q.(weights := q.weights[last.name := last.weight]);
      NamesSnoc(bkts);
      LastWins(bkts, (b: Bucket) => b.weight, q.weights, q2.weights);
      q2
  }

  /** Total number of waiters held in `keys`' FIFOs. */
  ghost function SumLengths(m: map<string, seq<WaiterId>>, keys: set<string>): nat
    requires keys <= m.Keys
    decreases keys
  {
    if keys == {} then 0
    else
      var k :| k in keys;
      |m[k]| + SumLengths(m, keys - {k})
  }

  /** Number of waiters in the queue, over all FIFOs. */
  ghost function Size(q: WRRQueue): nat
  {
    SumLengths(q.queues, q.queues.Keys)
  }

  lemma {:induction false} SumLengthsRemove(m: map<string, seq<WaiterId>>, keys: set<string>, k: string)
    requires keys <= m.Keys && k in keys
    ensures SumLengths(m, keys) == |m[k]| + SumLengths(m, keys - {k})
    decreases keys
  {
    var k' :| k' in keys && SumLengths(m, keys) == |m[k']| + SumLengths(m, keys - {k'});
    if k' != k {
      SumLengthsRemove(m, keys - {k'}, k);
      SumLengthsRemove(m, keys - {k}, k');
      assert keys - {k'} - {k} == keys - {k} - {k'};
    }
  }

  lemma {:induction false} SumLengthsAgree(m1: map<string, seq<WaiterId>>, m2: map<string, seq<WaiterId>>, keys: set<string>)
    requires keys <= m1.Keys && keys <= m2.Keys
    requires forall k :: k in keys ==> |m1[k]| == |m2[k]|
    ensures SumLengths(m1, keys) == SumLengths(m2, keys)
    decreases keys
  {
    if keys != {} {
      var k :| k in keys && SumLengths(m1, keys) == |m1[k]| + SumLengths(m1, keys - {k});
      SumLengthsRemove(m2, keys, k);
      SumLengthsAgree(m1, m2, keys - {k});
    }
  }

  lemma SizeAfterUpdate(q: WRRQueue, key: string, s: seq<WaiterId>)
    ensures Size(q.(queues := q.queues[key := s])) + |Fifo(q, key)| == Size(q) + |s|
  {
    var m := q.queues;
    var m2 := m[key := s];
    if key in m {
      SumLengthsRemove(m, m.Keys, key);
      SumLengthsRemove(m2, m2.Keys, key);
      assert m2.Keys - {key} == m.Keys - {key};
      SumLengthsAgree(m, m2, m.Keys - {key});
    } else {
      assert m2.Keys - {key} == m.Keys;
      SumLengthsRemove(m2, m2.Keys, key);
      SumLengthsAgree(m, m2, m.Keys);
    }
  }

  /** Appends `w` at the tail of FIFO `key`. */
  function Enqueue(q: WRRQueue, key: string, w: WaiterId): (q2: WRRQueue)
    ensures AppendedTail(q, key, w, q2)
    ensures Size(q2) == Size(q) + 1
  {
    SizeAfterUpdate(q, key, Fifo(q, key) + [w]);
    q.(queues := q.queues[key := Fifo(q, key) + [w]])
  }

  /** Waiter `w` sits in some FIFO of `q`. */
  ghost predicate Holds(q: WRRQueue, w: WaiterId)
  {
    exists k :: w in Fifo(q, k)
  }

  /** No waiter sits at two places of `q`: each delivery channel is queued at most once. */
  ghost predicate Distinct(q: WRRQueue)
  {
    forall k1, k2, i, j ::
      0 <= i < |Fifo(q, k1)| && 0 <= j < |Fifo(q, k2)| && Fifo(q, k1)[i] == Fifo(q, k2)[j] ==> k1 == k2 && i == j
  }

  /** A queue with no FIFOs holds no waiter. */
  lemma NoFifosHoldNothing(q: WRRQueue)
    requires q.queues == map[]
    ensures Distinct(q) && Size(q) == 0
    ensures forall w :: !Holds(q, w)
  {
    assert forall k :: Fifo(q, k) == [];
    assert q.queues.Keys == {};
  }

  /** Appending a waiter not yet held keeps the waiters distinct and adds exactly that waiter. */
  lemma AppendKeepsDistinct(q: WRRQueue, key: string, w: WaiterId, q2: WRRQueue)
    requires AppendedTail(q, key, w, q2) && Distinct(q) && !Holds(q, w)
    ensures Distinct(q2)
    ensures forall v :: Holds(q2, v) <==> Holds(q, v) || v == w
  {
    var n := |Fifo(q, key)|;
    forall k, j | 0 <= j < |Fifo(q2, k)| && !(k == key && j == n)
      ensures Fifo(q2, k)[j] != w
    {
      assert Fifo(q2, k)[j] == Fifo(q, k)[j];
      assert Fifo(q, k)[j] in Fifo(q, k);
    }
    forall k1, k2, i, j | 0 <= i < |Fifo(q2, k1)| && 0 <= j < |Fifo(q2, k2)| && Fifo(q2, k1)[i] == Fifo(q2, k2)[j]
      ensures k1 == k2 && i == j
    {
      if !(k1 == key && i == n) && !(k2 == key && j == n) {
        assert Fifo(q2, k1)[i] == Fifo(q, k1)[i];
        assert Fifo(q2, k2)[j] == Fifo(q, k2)[j];
      }
    }
    forall v
      ensures Holds(q2, v) <==> Holds(q, v) || v == w
    {
      if Holds(q2, v) {
        var k :| v in Fifo(q2, k);
        if k != key {
          assert v in Fifo(q, k);
        } else if v != w {
          assert v in Fifo(q, key);
        }
      }
      if Holds(q, v) {
        var k :| v in Fifo(q, k);
        if k == key {
          assert Fifo(q2, key) == Fifo(q, key) + [w];
        }
        assert v in Fifo(q2, k);
      }
      if v == w {
        assert w in Fifo(q2, key);
      }
    }
  }

  /** Popping a head keeps the waiters distinct; the popped waiter is no longer held, and no waiter is added. */
  lemma PopKeepsDistinct(q: WRRQueue, key: string, w: WaiterId, q2: WRRQueue)
    requires PoppedHead(q, key, w, q2) && Distinct(q)
    ensures Distinct(q2)
    ensures Holds(q, w) && !Holds(q2, w)
    ensures forall v :: Holds(q2, v) ==> Holds(q, v)
  {
    assert w == Fifo(q, key)[0];
    forall k1, k2, i, j | 0 <= i < |Fifo(q2, k1)| && 0 <= j < |Fifo(q2, k2)| && Fifo(q2, k1)[i] == Fifo(q2, k2)[j]
      ensures k1 == k2 && i == j
    {
      var i' := if k1 == key then i + 1 else i;
      var j' := if k2 == key then j + 1 else j;
      assert Fifo(q2, k1)[i] == Fifo(q, k1)[i'];
      assert Fifo(q2, k2)[j] == Fifo(q, k2)[j'];
    }
    forall k, j | 0 <= j < |Fifo(q2, k)|
      ensures Fifo(q2, k)[j] != w
    {
      var j' := if k == key then j + 1 else j;
      assert Fifo(q2, k)[j] == Fifo(q, k)[j'];
    }
    assert w in Fifo(q, key);
    forall v | Holds(q2, v)
      ensures Holds(q, v)
    {
      var k :| v in Fifo(q2, k);
      var j :| 0 <= j < |Fifo(q2, k)| && Fifo(q2, k)[j] == v;
      var j' := if k == key then j + 1 else j;
      assert Fifo(q, k)[j'] == v;
    }
  }

  /** Pops the head of the non-empty FIFO `key`. */
  function PopHead(q: WRRQueue, key: string): (p: Pop)
    requires Waiting(q, key)
    ensures p.Popped? && p.key == key && PoppedHead(q, key, p.waiter, p.rest)
    ensures Size(p.rest) + 1 == Size(q)
  {
    SizeAfterUpdate(q, key, Fifo(q, key)[1..]);
    Popped(key, Fifo(q, key)[0], q.(queues := q.queues[key := Fifo(q, key)[1..]]))
  }

  /** Pops the head of FIFO `key`, ignoring weights; an empty FIFO gives `Empty`. */
  function DequeueDirectly(q: WRRQueue, key: string): (p: Pop)
    ensures p.Empty? <==> !Waiting(q, key)
    ensures p.Popped? ==> p.key == key && PoppedHead(q, key, p.waiter, p.rest)
    ensures p.Popped? ==> Size(p.rest) + 1 == Size(q)
  {
    if !Waiting(q, key) then Empty else PopHead(q, key)
  }

  /** The weight `key` contributes to a draw: its weight when its FIFO is non-empty, else 0. */
  function Share(q: WRRQueue, key: string): nat
  {
    if Waiting(q, key) && key in q.weights then q.weights[key] else 0
  }

  /** Sum of the shares of `keys`; over a whole enumeration it is the total weight of a draw. */
  function EligibleWeight(q: WRRQueue, keys: seq<string>): nat
  {
    if |keys| == 0 then 0
    else EligibleWeight(q, keys[..|keys| - 1]) + Share(q, keys[|keys| - 1])
  }

  /** A draw usable on `q`: its order enumerates the weight map and its value is within the total. */
  ghost predicate ValidDraw(q: WRRQueue, d: Draw)
  {
    IsEnumeration(d.order, q.weights.Keys) && d.r <= EligibleWeight(q, d.order)
  }

  /**
   * The selection loop: from position `i`, with `acc` the weight accumulated so
   * far, the first waiting key whose running total reaches the draw `r`;
   * `|order|` when there is none.
   */
  function Select(q: WRRQueue, order: seq<string>, r: nat, i: nat, acc: nat): (j: nat)
    requires i <= |order|
    requires acc == EligibleWeight(q, order[..i])
    ensures i <= j <= |order|
    ensures j < |order| ==> Waiting(q, order[j]) && r <= EligibleWeight(q, order[..j + 1])
    ensures forall m :: i <= m < j && Waiting(q, order[m]) ==> EligibleWeight(q, order[..m + 1]) < r
    ensures j == |order| && r <= EligibleWeight(q, order) ==>
              forall m :: i <= m < |order| ==> !Waiting(q, order[m])
    decreases |order| - i
  {
    if i == |order| then i
    else
      var key := order[i];
      assert order[..i + 1][..i] == order[..i];
      var ptr := acc + Share(q, key);
      if Waiting(q, key) && r <= ptr then i
      else
        var j := Select(q, order, r, i + 1, ptr);
        IdleSuffixAddsNothing(q, order, i + 1);
        j
  }

  /** The weighted dequeue: pops the head of exactly one waiting FIFO chosen by the draw, or reports `Empty`. */
  function Dequeue(q: WRRQueue, d: Draw): (p: Pop)
    requires ValidDraw(q, d)
    ensures p.Empty? <==> forall k :: k in q.weights ==> !Waiting(q, k)
    ensures p.Popped? ==> p.key in q.weights && PoppedHead(q, p.key, p.waiter, p.rest)
    ensures p.Popped? ==> Size(p.rest) + 1 == Size(q)
  {
    if |q.weights| == 0 then Empty
    else
      var j := Select(q, d.order, d.r, 0, 0);
      if j == |d.order| then Empty else PopHead(q, d.order[j])
  }

  lemma {:induction false} IdleSuffixAddsNothing(q: WRRQueue, order: seq<string>, i: nat)
    requires i <= |order|
    ensures (forall m :: i <= m < |order| ==> !Waiting(q, order[m])) ==>
              EligibleWeight(q, order) == EligibleWeight(q, order[..i])
    decreases |order| - i
  {
    if i < |order| && forall m :: i <= m < |order| ==> !Waiting(q, order[m]) {
      var init := order[..|order| - 1];
      assert init[..i] == order[..i];
      assert forall m :: i <= m < |init| ==> init[m] == order[m];
      IdleSuffixAddsNothing(q, init, i);
    } else if i == |order| {
      assert order[..i] == order;
    }
  }

  lemma {:induction false} EligibleWeightMonotone(q: WRRQueue, order: seq<string>, a: nat, b: nat)
    requires a <= b <= |order|
    ensures EligibleWeight(q, order[..a]) <= EligibleWeight(q, order[..b])
    decreases b - a
  {
    if a < b {
      assert order[..b][..b - 1] == order[..b - 1];
      EligibleWeightMonotone(q, order, a, b - 1);
    }
  }

  /**
   * Proportional selection: the draws that pick the waiting key at position `i`
   * include the whole interval (before, before + weight], whose length is that
   * key's weight.
   */
  lemma DequeueDrawInterval(q: WRRQueue, order: seq<string>, r: nat, i: nat)
    requires IsEnumeration(order, q.weights.Keys)
    requires i < |order| && Waiting(q, order[i])
    requires EligibleWeight(q, order[..i]) < r <= EligibleWeight(q, order[..i + 1])
    ensures r <= EligibleWeight(q, order)
    ensures Dequeue(q, Draw(order, r)) == PopHead(q, order[i])
  {
    EligibleWeightMonotone(q, order, i + 1, |order|);
    assert order[..|order|] == order;
    var j := Select(q, order, r, 0, 0);
    if j < i {
      EligibleWeightMonotone(q, order, j + 1, i);
    }
    assert j == i;
  }

  /** A draw of 0 picks the first waiting key of the order, whatever the weights (zero weights included). */
  lemma DequeueZeroDrawPicksFirstWaiting(q: WRRQueue, order: seq<string>, i: nat)
    requires IsEnumeration(order, q.weights.Keys)
    requires i < |order| && Waiting(q, order[i])
    requires forall m :: 0 <= m < i ==> !Waiting(q, order[m])
    ensures Dequeue(q, Draw(order, 0)) == PopHead(q, order[i])
  {
    var j := Select(q, order, 0, 0, 0);
    assert order[i] in q.weights;
    assert j == i;
  }

  lemma {:induction false} EligibleWeightAppend(q: WRRQueue, a: seq<string>, b: seq<string>)
    ensures EligibleWeight(q, a + b) == EligibleWeight(q, a) + EligibleWeight(q, b)
    decreases |b|
  {
    if |b| == 0 {
      assert a + b == a;
    } else {
      var b0 := b[..|b| - 1];
      assert (a + b)[..|a + b| - 1] == a + b0;
      EligibleWeightAppend(q, a, b0);
    }
  }

  lemma EnumerationRemove(order: seq<string>, keys: set<string>, j: nat)
    requires IsEnumeration(order, keys)
    requires j < |order|
    ensures IsEnumeration(order[..j] + order[j + 1..], keys - {order[j]})
  {
    var o := order[..j] + order[j + 1..];
    forall k | k in keys - {order[j]}
      ensures k in o
    {
      var m :| 0 <= m < |order| && order[m] == k;
      if m < j {
        assert o[m] == k;
      } else {
        assert o[m - 1] == k;
      }
    }
    forall a, b | 0 <= a < b < |o|
      ensures o[a] != o[b]
    {
      var a' := if a < j then a else a + 1;
      var b' := if b < j then b else b + 1;
      assert o[a] == order[a'] && o[b] == order[b'];
    }
    forall a | 0 <= a < |o|
      ensures o[a] in keys - {order[j]}
    {
      var a' := if a < j then a else a + 1;
      assert o[a] == order[a'];
    }
  }

  lemma EligibleWeightRemoveAt(q: WRRQueue, o: seq<string>, j: nat)
    requires j < |o|
    ensures EligibleWeight(q, o) == EligibleWeight(q, o[..j] + o[j + 1..]) + Share(q, o[j])
  {
    assert o == o[..j] + [o[j]] + o[j + 1..];
    EligibleWeightAppend(q, o[..j] + [o[j]], o[j + 1..]);
    EligibleWeightAppend(q, o[..j], [o[j]]);
    EligibleWeightAppend(q, o[..j], o[j + 1..]);
    assert [o[j]][..0] == [];
  }

  /**
   * The total weight of a draw does not depend on the iteration order, so the
   * Go code's two separately ordered loops over the weight map agree on it.
   */
  lemma {:induction false} TotalWeightOrderIndependent(q: WRRQueue, o1: seq<string>, o2: seq<string>, keys: set<string>)
    requires IsEnumeration(o1, keys) && IsEnumeration(o2, keys)
    ensures EligibleWeight(q, o1) == EligibleWeight(q, o2)
    decreases |o1|
  {
    if |o1| > 0 {
      var n := |o1| - 1;
      var x := o1[n];
      assert x in keys;
      var j :| 0 <= j < |o2| && o2[j] == x;
      EnumerationRemove(o2, keys, j);
      EnumerationRemove(o1, keys, n);
      assert o1[..n] + o1[n + 1..] == o1[..n];
      TotalWeightOrderIndependent(q, o1[..n], o2[..j] + o2[j + 1..], keys - {x});
      EligibleWeightRemoveAt(q, o2, j);
    }
  }
}
